=== FILE: README.md ===
# Land/ocean classification and EXIF GPS tags of an ISS photo logger

The program photographs the Earth from the International Space Station. It
records two things about each sample, and both are pure decisions:

- **Land or ocean.** `sort_land_ocean(lon, lat)` tests the sub-satellite
  point against four constant ocean-basin outlines. The outlines are the
  Atlantic, the Indian Ocean, and the Pacific split at the antimeridian into
  an eastern and a western part. The answer is `"Ocean"` when any outline
  contains the point and `"Land"` otherwise.
- **GPS tags.** In each sample, `get_latlon` turns the orbit library's
  `deg:min:sec` angle texts into EXIF GPS tags and sets them on the camera.
  Each tag is a hemisphere reference (`E`/`W` or `N`/`S`) plus a rational
  triple `D/1,M/1,T/10`, where T is the seconds in tenths. The loop captures
  a photograph before it calls `get_latlon`, so each photograph carries the
  tags set in the previous sample.

The Dafny model has these modules:

| module | file | contents |
|---|---|---|
| `Geometry` | geometry.dfy | vertices, closed polygons, the even-odd crossing test `Contains`, the loop `ContainsPoint`, rotation invariance, extent bounds |
| `Oceans` | oceans.dfy | the four outline constants, copied vertex for vertex, and their data invariants |
| `Classifier` | classifier.dfy | the Ocean/Land decision over the four outlines and its order independence |
| `Scenarios` | scenarios.dfy | concrete positions whose classification is proved from the constant data |
| `Results`, `Text` | text.dfy | `Option`/`Result`, and splitting on a separator and joining back |
| `Numerals` | numerals.dfy | decimal numerals: the numbers `float()` reads and the integers `%d` writes |
| `ExifGps` | exifgps.dfy | angle-text parsing, the hemisphere reference, the rational triple, and its read-back |

**Containment rule.** The source calls matplotlib's `Path.contains_points`,
whose tie-break on the boundary is foreign code. The model uses an explicit
even-odd ray-casting test in exact `real` arithmetic instead:

- A ray runs due east from the point.
- An edge counts as crossed when one endpoint is strictly north of the
  point's parallel, the other is on or south of it, and the edge meets the
  parallel strictly east of the point.
- Every edge of the closed chain is tested, including the one from the last
  vertex back to the first.
- Boundary points get no special case. A point on a non-horizontal edge is
  therefore inside exactly when the outline continues immediately east of
  it, and a point inside a horizontal edge is inside exactly when the outline
  lies immediately north of it.

**What the outline data and the parsing code imply:**

- **London.** London `(-0.13, 51.50)`, which is on land, comes out `Ocean`.
  The Atlantic edge from (4.6, 52.2) to (-6.3, 48.4) passes east of the city,
  so the Atlantic outline takes in southern England (`Scenarios.LondonIsOcean`).
- **Just east of the antimeridian.** `(179.9, 0)`, in the open Pacific, comes
  out `Land`. The eastern Pacific outline jumps from (170.7, 59.8) straight to
  (179.9, -77.1), which leaves a strip east of that edge uncovered
  (`Scenarios.EquatorAt179EIsLand`).
- **Just west of the antimeridian.** `(-179.0, 0)` lies inside the western
  Pacific outline and off its boundary, so it is `Ocean` under any boundary
  rule (`Scenarios.NearAntimeridianWestIsOcean`). `(-179.9, 0)` lies exactly
  on that outline's closing edge, which runs along 179.9 W. It comes out
  `Ocean` only because of the boundary rule above; a rule that also counted
  a crossing at the point's own longitude would give `Land`
  (`Scenarios.EquatorAt179WIsOcean`).
- **Field count.** The angle text may have three or more colon-separated
  fields. Every field must read as a number, and fields after the third are
  ignored. Fewer than three numeric fields is an error (`MissingField`),
  which stands for the source's `IndexError`.
- **A `-0` degree field.** The hemisphere test is numeric on the degree
  field, so a `-0` degree field gets `E`/`N`. `ExifGps.GetLatLonTags` writes
  the tags as the source does, this case included. A corrected encoding that
  follows the sign of the whole angle is modelled beside it; see Findings.

## Model

| member | source | states |
|---|---|---|
| Geometry.Contains | mostlyharmless_main.py:156-169 | a point is inside an outline when the eastward ray from it crosses the implicitly closed edge chain an odd number of times |
| Geometry.ContainsPoint | mostlyharmless_main.py:166-169 | the vertex-pair scan that tests one point against one outline answers true exactly when `Contains` holds, the empty outline included |
| Geometry.ContainsRotationInvariant | mostlyharmless_main.py:156-159 | the outlines are closed chains, so listing an outline from any other starting vertex leaves containment unchanged |
| Geometry.CrossedEdgeSurroundsPoint | mostlyharmless_main.py:166-169 | an edge the eastward ray crosses has one endpoint strictly north of the point, one on or south of it, and one strictly east of it |
| Geometry.EdgeAwayNotCrossed | mostlyharmless_main.py:166-169 | an edge entirely north, entirely on or south, or entirely on or west of the point is never crossed |
| Geometry.SlopingSouthernSideOutside | mostlyharmless_main.py:166-169 | under the crossing rule, a point on a sloping southern side of a triangle is outside: that side meets the point's parallel at the point itself and is not counted |
| Geometry.OutsideExtentNotContained | mostlyharmless_main.py:166-169 | a point north of every vertex, on or south of every vertex, or on or east of every vertex is outside the outline |
| Geometry.ContainedWithinExtent | mostlyharmless_main.py:166-169 | a contained point has some vertex strictly north of it, some vertex on or south of it, and some vertex strictly east of it |
| Oceans.Outline | mostlyharmless_main.py:113-154 | every basin outline has at least three vertices, every vertex lies within longitude [-180, 180] and latitude [-90, 90], no edge joins a vertex to itself, eastern Pacific longitudes are all positive and western Pacific longitudes all negative |
| Oceans.Registry | mostlyharmless_main.py:156-159 | the classifier tests exactly the four basin outlines, each of them, and nothing else |
| Oceans.AtlanticWellFormed | mostlyharmless_main.py:113-125 | the Atlantic outline meets the data invariants |
| Oceans.IndianWellFormed | mostlyharmless_main.py:127-134 | the Indian Ocean outline meets the data invariants |
| Oceans.PacificEastWellFormed | mostlyharmless_main.py:136-144 | the eastern Pacific outline meets the data invariants |
| Oceans.PacificWestWellFormed | mostlyharmless_main.py:146-154 | the western Pacific outline meets the data invariants |
| Classifier.ClassifyAgainst | mostlyharmless_main.py:166-175 | testing a point against a list of outlines answers Ocean exactly when some outline in the list contains it, and Land otherwise |
| Classifier.ClassificationIgnoresOrder | mostlyharmless_main.py:166-172 | the decision is a plain disjunction, so any reordering of the tested outlines gives the same status |
| Classifier.ClassificationIgnoresOutlineStart | mostlyharmless_main.py:156-172 | rotating the vertex list of any one tested outline gives the same status |
| Classifier.RegistryClassification | mostlyharmless_main.py:156-175 | against the four registered outlines the answer is Ocean exactly when some basin's outline contains the point |
| Classifier.Label | mostlyharmless_main.py:172-175 | the status text is "Ocean" exactly for the ocean status and "Land" exactly for the land status |
| Classifier.SortLandOcean | mostlyharmless_main.py:102-175 | the result is "Ocean" exactly when some basin outline contains the point (lon, lat) taken in that order, and "Land" exactly when none does; nothing else is ever returned |
| Scenarios.GulfOfGuineaIsOcean | mostlyharmless_main.py:113-125 | (0, 0) in the Gulf of Guinea is ocean |
| Scenarios.MidPacificIsOcean | mostlyharmless_main.py:146-154 | (-150, 20) in the northern Pacific is ocean |
| Scenarios.LondonIsOcean | mostlyharmless_main.py:113-125 | London (-0.13, 51.50) is classified ocean, because the Atlantic outline takes in southern England |
| Scenarios.ParisIsLand | mostlyharmless_main.py:113-175 | Paris (2.35, 48.85) is in none of the four outlines, so it is land |
| Scenarios.SwappedCoordinatesChangeStatus | mostlyharmless_main.py:161-164 | passing latitude in place of longitude changes the answer: Paris is land but (48.85, 2.35) is ocean |
| Scenarios.EquatorAt179WIsOcean | mostlyharmless_main.py:146-154 | (-179.9, 0) is ocean; the point lies on the western Pacific closing edge, so this answer comes from the boundary rule (a crossing must lie strictly east of the point), not from anything the source decides |
| Scenarios.NearAntimeridianWestIsOcean | mostlyharmless_main.py:146-154 | (-179.0, 0), inside the western Pacific outline and off its boundary, is ocean |
| Scenarios.EquatorAt179EIsLand | mostlyharmless_main.py:136-154 | (179.9, 0), just east of the antimeridian, is in no outline and so is land |
| Text.Split | mostlyharmless_main.py:67 | splitting on a separator gives at least one piece, no piece contains the separator, and joining the pieces back gives the original text |
| Text.SplitJoin | mostlyharmless_main.py:67 | splitting undoes joining whenever no piece contains the separator |
| Numerals.ParseNumber | mostlyharmless_main.py:67 | a field read as a number is non-empty; a negative value needs a leading minus sign; a leading minus sign never gives a positive value |
| Numerals.IntToString | mostlyharmless_main.py:80 | "%d" writes at least one character, only digits and a minus sign, and a leading minus sign exactly for negative values; it never pads with zeros: a leading '0' occurs only in "0" itself, and a minus sign is never followed by '0' |
| Numerals.ParseIntRoundTrip | mostlyharmless_main.py:80 | an integer written as "%d" writes it reads back as the same integer |
| Numerals.ParseNumberOfInteger | mostlyharmless_main.py:67 | an integer written as "%d" writes it is read by `float()` as that integer |
| Numerals.ParseNumberOfTenths | mostlyharmless_main.py:67 | a seconds field made of any non-empty digit string (leading zeros included), a point and one more digit reads as the whole seconds plus that many tenths |
| ExifGps.ParseFields | mostlyharmless_main.py:67 | every field is read as a number, left to right; the reading succeeds exactly when every field is numeric, keeping each field's value in its place, and otherwise reports the first field that is not numeric |
| ExifGps.ParseDms | mostlyharmless_main.py:67 | an angle text gives degrees, minutes and seconds exactly when it has at least three colon-separated fields that are all numeric, with the first three fields' values; a text whose fields are all numeric but fewer than three is a missing-field error |
| ExifGps.Abs | mostlyharmless_main.py:75 | abs() gives a non-negative value equal to the argument or its negation |
| ExifGps.FormatRational | mostlyharmless_main.py:80 | the tag text is the three pairs degrees/1, minutes/1 and tenths/10, in that order, joined with ',' |
| ExifGps.Trunc | mostlyharmless_main.py:80 | "%d" of a real is its integer part truncated toward zero, for either sign |
| ExifGps.EncodeDms | mostlyharmless_main.py:73-80 | the reference is W/S exactly when the parsed degree field is numerically below zero, and E/N exactly when it is not |
| ExifGps.EncodeDmsRational | mostlyharmless_main.py:75-80 | the rational triple reads back as the truncated magnitude of the degree field over 1, the truncated minutes over 1, and the truncated tenths of seconds over 10 |
| ExifGps.DecodeFormatRational | mostlyharmless_main.py:80 | the text '%d/1,%d/1,%d/10' reads back as exactly the three integers written, over denominators 1, 1 and 10 |
| ExifGps.TagWithinTenthOfSecond | mostlyharmless_main.py:73-80 | for whole degrees and minutes and non-negative seconds, the angle the triple denotes falls short of the angle's size by less than a tenth of an arc-second and never exceeds it |
| ExifGps.GpsTagFor | mostlyharmless_main.py:67-80 | the source's encoding of one axis: a tag exists exactly when the text parses, and the parse error is passed on unchanged; the reference is always E/N or W/S, the negative one exactly when the parsed degree field is below zero and the positive one exactly when it is not; the triple is the one EncodeDms writes for the parsed fields |
| ExifGps.NegativeZeroDegreesTaggedEast | mostlyharmless_main.py:67-80 | the source tags "-0:30:00", which denotes -0.5 degrees, as E with triple 0/1,30/1,0/10 |
| ExifGps.SouthernLatitudeExample | mostlyharmless_main.py:83-96 | "-45:30:15.5" as a latitude is tagged S with triple 45/1,30/1,155/10 |
| ExifGps.EncodeDmsSigned | mostlyharmless_main.py:73-80 | corrected encoding: with non-negative minutes and seconds the reference is W/S exactly when the angle the text denotes is below zero; the triple is the source's |
| ExifGps.GpsTagForSigned | mostlyharmless_main.py:67-80 | corrected encoding of one axis: a tag exists exactly when the text parses; the reference is always E/N or W/S, and for non-negative minutes and seconds it is the negative one exactly when the denoted angle is below zero; the triple is the one EncodeDms writes |
| ExifGps.SignedAgreesOffZeroDegrees | mostlyharmless_main.py:73-80 | unless the degree field is zero, the corrected encoding gives the very tag the source gives |
| ExifGps.NegativeZeroDegreesTaggedWestWhenSigned | mostlyharmless_main.py:73-80 | the corrected encoding tags "-0:30:00" W with the same triple |
| ExifGps.GetLatLonTags | mostlyharmless_main.py:67-96 | the returned pair of tags, computed as the source computes them: a pair is returned exactly when both texts parse; the longitude error is reported before the latitude error; the references lie in {E, W} and {N, S}; each reference is W or S exactly when its parsed degree field is below zero; the triples are those of EncodeDms |
| ExifGps.GetLatLonTagsSigned | mostlyharmless_main.py:67-96 | corrected pair of tags: same existence, error order and triples as the source, but each reference follows the sign of the angle its text denotes |
| ExifGps.GetLatLonTagsAgreesOffZeroDegrees | mostlyharmless_main.py:67-96 | when neither degree field is zero, the corrected pair of tags equals the pair the source writes |

## Left out

- `get_mag` reads the magnetometer and uses floating-point `sqrt` and `round`. It is hardware I/O.
- The decimal latitude and longitude `get_latlon` returns come from `math.degrees` and `round(…, 2)`, which are floating-point. The classifier takes decimal degrees as inputs instead.
- The orbit propagation (`ephem`, `iss.compute()`) is an external library. Its `sublong`/`sublat` angle texts are inputs here.
- The camera is left out: setting it up, `cam.capture`, and the writes into `cam.exif_tags`. The tags come back as returned values. Because of this the model does not show that the source writes the reference tag before a short angle text raises `IndexError`.
- ExifGps.GetLatLonTags: when the longitude text parses and the latitude text does not, the source has already set the longitude reference and tag on the camera before reading the latitude fails, and the camera keeps them. The model returns only the error, because it has no camera state.
- Floating-point artefacts of `seconds*10` before `%d` are not modelled: the arithmetic is exact `real` arithmetic.
- matplotlib's own boundary tie-break and `radius` handling in `contains_points` are foreign code. They are replaced by the documented crossing rule above.
- Creating and appending the CSV log, the timed loop with `sleep`, and the exception-swallowing logging are left out as I/O and process lifecycle.
- Numerals.ParseNumber: reads only plain decimal numerals (optional sign, digits, at most one point). `float()` also accepts exponents, `inf`, `nan`, underscores and surrounding whitespace, none of which the orbit library prints.
- Scenarios.EquatorAt179WIsOcean: the point lies exactly on the western Pacific closing edge, so its status follows the boundary rule chosen here; what matplotlib answers for it cannot be seen. Scenarios.NearAntimeridianWestIsOcean states the boundary-independent fact.
- Oceans.Outline: checks the data invariants listed in the table but not that each outline is a simple (non-self-intersecting) polygon. The even-odd rule gives an answer for any closed chain.
- ExifGps.TagWithinTenthOfSecond: is stated only for whole degree and minute fields and non-negative seconds, which is the form the orbit library prints.

## Findings

| source | as written | input that shows it | evidently intended | confidence | as-written member | corrected member |
|---|---|---|---|---|---|---|
| mostlyharmless_main.py:67-80, 83-96 | the hemisphere reference is chosen by `value[0] < 0` on the parsed degree field, so a minus sign on a zero degree field is lost | longitude "-0:30:00", half a degree west, is tagged E with 0/1,30/1,0/10 | the reference follows the sign of the whole angle, so that text is tagged W | not executed | ExifGps.NegativeZeroDegreesTaggedEast | ExifGps.GetLatLonTagsSigned |

=== FILE: classifier.dfy ===
/** The land/ocean decision: a position is over the ocean exactly when one of
    the basin outlines contains it, and over land otherwise. */
module Classifier {
  import opened Geometry
  import opened Oceans

  /** The two outcomes; there is no third, "unknown" one. */
  datatype Status = Land | Ocean

  /** The text logged in the Status column. */
  function Label(s: Status): (text: string)
    ensures text == "Ocean" <==> s == Ocean
    ensures text == "Land" <==> s == Land
  {
    match s
    case Land => "Land"
    case Ocean => "Ocean"
  }

  /** Tests p against the outlines in the order listed, answering Ocean at the
      first one that contains it. */
  function ClassifyAgainst(regions: seq<Polygon>, p: Vertex): (s: Status)
    ensures s == Ocean <==> exists i :: 0 <= i < |regions| && Contains(regions[i], p)
  {
    if |regions| == 0 then Land
    else if Contains(regions[0], p) then Ocean
    else
      var s := ClassifyAgainst(regions[1..], p);
      assert forall i :: 1 <= i < |regions| ==> regions[i] == regions[1..][i - 1];
      s
  }

  /** The outcome depends only on which outlines are tested, not on the order
      in which they are tested. */
  lemma ClassificationIgnoresOrder(regions: seq<Polygon>, reordered: seq<Polygon>, p: Vertex)
    requires multiset(regions) == multiset(reordered)
    ensures ClassifyAgainst(regions, p) == ClassifyAgainst(reordered, p)
  {
    OceanTransfers(regions, reordered, p);
    OceanTransfers(reordered, regions, p);
  }

  lemma OceanTransfers(regions: seq<Polygon>, reordered: seq<Polygon>, p: Vertex)
    requires multiset(regions) == multiset(reordered)
    ensures ClassifyAgainst(regions, p) == Ocean ==> ClassifyAgainst(reordered, p) == Ocean
  {
    if ClassifyAgainst(regions, p) == Ocean {
      var i :| 0 <= i < |regions| && Contains(regions[i], p);
      assert regions[i] in multiset(reordered);
      var j :| 0 <= j < |reordered| && reordered[j] == regions[i];
    }
  }

  /** Listing any one outline from a different starting vertex leaves the
      outcome unchanged. */
  lemma ClassificationIgnoresOutlineStart(regions: seq<Polygon>, j: nat, k: nat, p: Vertex)
    requires j < |regions| && k <= |regions[j]|
    ensures ClassifyAgainst(regions[j := Rotate(regions[j], k)], p) == ClassifyAgainst(regions, p)
  {
    ContainsRotationInvariant(regions[j], k, p);
    var rotated := regions[j := Rotate(regions[j], k)];
    assert forall i :: 0 <= i < |regions| ==> (Contains(rotated[i], p) <==> Contains(regions[i], p));
  }

  /** Classifies the position with longitude lon and latitude lat. The two
      arguments go into the typed fields of one Vertex, longitude first, the
      same order as every outline vertex. */
  function SortLandOcean(lon: real, lat: real): (status: string)
    ensures status == "Ocean" <==> exists b :: Contains(Outline(b), Vertex(lon, lat))
    ensures status == "Land" <==> forall b :: !Contains(Outline(b), Vertex(lon, lat))
  {
    var target := Vertex(lon := lon, lat := lat);
    RegistryClassification(target);
    Label(ClassifyAgainst(Registry(), target))
  }

  /** Classifying against the registry answers Ocean exactly when some
      basin's outline contains the point. */
  lemma RegistryClassification(p: Vertex)
    ensures ClassifyAgainst(Registry(), p) == Ocean <==> exists b :: Contains(Outline(b), p)
  {
    var regions := Registry();
    if ClassifyAgainst(regions, p) == Ocean {
      var i :| 0 <= i < |regions| && Contains(regions[i], p);
      assert regions[i] in regions;
      var b :| regions[i] == Outline(b);
      assert Contains(Outline(b), p);
    }
    if exists b :: Contains(Outline(b), p) {
      var b :| Contains(Outline(b), p);
      assert Outline(b) in regions;
      var i :| 0 <= i < |regions| && regions[i] == Outline(b);
      assert Contains(regions[i], p);
    }
  }
}

=== FILE: exifgps.dfy ===
/** The position metadata written into each photograph. For each axis the
    sub-satellite angle arrives as colon-separated degree:minute:second text;
    it becomes a hemisphere reference and a rational triple in the convention
    of the GPSLongitude and GPSLatitude tags of the Exif 2.3 GPS attribute
    section: whole degrees over 1, whole minutes over 1, and tenths of a second
    over 10. */
module ExifGps {
  import opened Results
  import opened Text
  import opened Numerals

  datatype Axis = Longitude | Latitude

  /** Reference for an angle east of Greenwich or north of the equator. */
  function PositiveRef(axis: Axis): string
  {
    match axis
    case Longitude => "E"
    case Latitude => "N"
  }

  /** Reference for an angle west of Greenwich or south of the equator. */
  function NegativeRef(axis: Axis): string
  {
    match axis
    case Longitude => "W"
    case Latitude => "S"
  }

  /** Why an angle text cannot be encoded: a field that is not a number, or
      fewer than three fields. */
  datatype ParseError = NotANumber(field: string) | MissingField(count: nat)

  /** The first three fields of an angle text, read as numbers. */
  datatype Dms = Dms(degrees: real, minutes: real, seconds: real)

  /** A hemisphere reference and the rational triple text. */
  datatype GpsTag = GpsTag(ref: string, rational: string)

  /** Field i is the first one that is not a number, and e reports it. */
  predicate FirstBadField(fields: seq<string>, i: int, e: ParseError)
  {
    && 0 <= i < |fields|
    && ParseNumber(fields[i]).None?
    && e == NotANumber(fields[i])
    && forall j :: 0 <= j < i ==> ParseNumber(fields[j]).Some?
  }

  /** Every field read as a number, left to right. The first field that is not
      a number is the one reported. */
  function ParseFields(fields: seq<string>): (r: Result<seq<real>, ParseError>)
    ensures r.Ok? <==> forall i :: 0 <= i < |fields| ==> ParseNumber(fields[i]).Some?
    ensures r.Ok? ==> |r.value| == |fields|
    ensures r.Ok? ==> forall i :: 0 <= i < |fields| ==> ParseNumber(fields[i]) == Some(r.value[i])
    ensures r.Err? ==> exists i :: FirstBadField(fields, i, r.error)
  {
    if |fields| == 0 then Ok([])
    else
      match ParseNumber(fields[0])
      case None =>
        assert FirstBadField(fields, 0, NotANumber(fields[0]));
        Err(NotANumber(fields[0]))
      case Some(v) =>
        match ParseFields(fields[1..])
        case Ok(vs) =>
          FieldValuesExtend(fields, v, vs);
          Ok([v] + vs)
        case Err(e) =>
          var i :| FirstBadField(fields[1..], i, e);
          FirstBadFieldShifts(fields, i, e);
          Err(e)
  }

  /** A first bad field after a good first field is the first bad field of
      the whole list, one place further on. */
  lemma FirstBadFieldShifts(fields: seq<string>, i: int, e: ParseError)
    requires |fields| >= 1 && ParseNumber(fields[0]).Some?
    requires FirstBadField(fields[1..], i, e)
    ensures FirstBadField(fields, i + 1, e)
  {
    assert forall j :: 1 <= j <= i ==> fields[j] == fields[1..][j - 1];
  }

  /** The value of a good first field followed by the values of the rest are
      the values of every field, in place. */
  lemma FieldValuesExtend(fields: seq<string>, v: real, vs: seq<real>)
    requires |fields| >= 1 && ParseNumber(fields[0]) == Some(v)
    requires |vs| == |fields| - 1
    requires forall i :: 0 <= i < |vs| ==> ParseNumber(fields[1..][i]) == Some(vs[i])
    ensures forall i :: 0 <= i < |fields| ==> ParseNumber(fields[i]) == Some(([v] + vs)[i])
  {
    var all := [v] + vs;
    assert all[0] == v;
    forall i | 1 <= i < |fields|
      ensures ParseNumber(fields[i]) == Some(all[i])
    {
      assert fields[i] == fields[1..][i - 1];
      assert all[i] == vs[i - 1];
    }
  }

  /** The angle text split on ':' with every field read as a number. Fields
      after the third are read but otherwise ignored. */
  function ParseDms(text: string): (r: Result<Dms, ParseError>)
    ensures r.Ok? <==> && |Split(text, ':')| >= 3
                       && forall i :: 0 <= i < |Split(text, ':')| ==> ParseNumber(Split(text, ':')[i]).Some?
    ensures r.Ok? ==> && Some(r.value.degrees) == ParseNumber(Split(text, ':')[0])
                      && Some(r.value.minutes) == ParseNumber(Split(text, ':')[1])
                      && Some(r.value.seconds) == ParseNumber(Split(text, ':')[2])
    ensures r == Err(MissingField(|Split(text, ':')|)) <==>
              && |Split(text, ':')| < 3
              && forall i :: 0 <= i < |Split(text, ':')| ==> ParseNumber(Split(text, ':')[i]).Some?
    ensures (exists i :: 0 <= i < |Split(text, ':')| && ParseNumber(Split(text, ':')[i]).None?) ==>
              r.Err? && exists i :: FirstBadField(Split(text, ':'), i, r.error)
  {
    var fields := Split(text, ':');
    match ParseFields(fields)
    case Err(e) => Err(e)
    case Ok(values) =>
      if |values| < 3 then Err(MissingField(|values|))
      else Ok(Dms(values[0], values[1], values[2]))
  }

  function Abs(x: real): (a: real)
    ensures a >= 0.0
    ensures a == x || a == -x
  {
    if x < 0.0 then -x else x
  }

  /** The integer "%d" prints for a float: its integer part, truncated toward
      zero. */
  function Trunc(x: real): (n: int)
    ensures x >= 0.0 ==> 0 <= n && n as real <= x < n as real + 1.0
    ensures x < 0.0 ==> n <= 0 && n as real - 1.0 < x <= n as real
  {
    if x >= 0.0 then x.Floor else -((-x).Floor)
  }

  /** The rational triple text: degrees over 1, minutes over 1, tenths of a
      second over 10. */
  function FormatRational(degrees: int, minutes: int, tenths: int): (text: string)
    ensures text == Join([PairText(degrees, "1"), PairText(minutes, "1"), PairText(tenths, "10")], ',')
  {
    var d, m, t := IntToString(degrees), IntToString(minutes), IntToString(tenths);
    JoinThree(PairText(degrees, "1"), PairText(minutes, "1"), PairText(tenths, "10"), ',');
    RegroupTriple(d, m, t);
    d + "/1," + m + "/1," + t + "/10"
  }

  /** One numerator/denominator pair, "n/d". */
  function DecodePair(s: string): Option<(int, nat)>
  {
    var nd := Split(s, '/');
    if |nd| != 2 then None
    else
      var n, d := ParseInt(nd[0]), ParseNat(nd[1]);
      if n.Some? && d.Some? then Some((n.value, d.value)) else None
  }

  function DecodePairs(parts: seq<string>): Option<seq<(int, nat)>>
  {
    if |parts| == 0 then Some([])
    else
      var head, rest := DecodePair(parts[0]), DecodePairs(parts[1..]);
      if head.Some? && rest.Some? then Some([head.value] + rest.value) else None
  }

  /** Reads a comma-separated list of "n/d" pairs back into numbers. */
  function DecodeRationals(s: string): Option<seq<(int, nat)>>
  {
    DecodePairs(Split(s, ','))
  }

  /** One "n/d" pair as FormatRational writes it. */
  function PairText(n: int, den: string): string
  {
    IntToString(n) + "/" + den
  }

  lemma DecodeOnePair(n: int, den: string, d: nat)
    requires ParseNat(den) == Some(d) && '/' !in den
    ensures DecodePair(PairText(n, den)) == Some((n, d))
  {
    var num := IntToString(n);
    assert '/' !in num;
    assert Join([num, den], '/') == num + "/" + den;
    SplitJoin([num, den], '/');
    ParseIntRoundTrip(n);
  }

  lemma JoinThree(a: string, b: string, c: string, sep: char)
    ensures Join([a, b, c], sep) == a + [sep] + b + [sep] + c
  {
    assert [a, b, c][1..] == [b, c];
    assert [b, c][1..] == [c];
    assert Join([b, c], sep) == b + [sep] + c;
  }

  lemma RegroupTriple(a: string, b: string, c: string)
    ensures a + "/1," + b + "/1," + c + "/10"
            == (a + "/" + "1") + [','] + (b + "/" + "1") + [','] + (c + "/" + "10")
  {
  }

  lemma DecodeThreePairs(x: string, y: string, z: string, qx: (int, nat), qy: (int, nat), qz: (int, nat))
    requires DecodePair(x) == Some(qx) && DecodePair(y) == Some(qy) && DecodePair(z) == Some(qz)
    ensures DecodePairs([x, y, z]) == Some([qx, qy, qz])
  {
    assert [z][1..] == [];
    assert [qz] + [] == [qz];
    assert DecodePairs([z]) == Some([qz]);
    assert [y, z][1..] == [z];
    assert [qy] + [qz] == [qy, qz];
    assert DecodePairs([y, z]) == Some([qy, qz]);
    assert [x, y, z][1..] == [y, z];
    assert [qx] + [qy, qz] == [qx, qy, qz];
  }

  lemma DenominatorsParse()
    ensures ParseNat("1") == Some(1) && ParseNat("10") == Some(10)
    ensures '/' !in "1" && '/' !in "10"
  {
    assert DigitsValue("10") == 10 by {
      assert "10"[..1] == "1";
    }
  }

  /** The rational text reads back as exactly the three numerators written,
      over the fixed denominators 1, 1 and 10. */
  lemma DecodeFormatRational(degrees: int, minutes: int, tenths: int)
    ensures DecodeRationals(FormatRational(degrees, minutes, tenths))
            == Some([(degrees, 1), (minutes, 1), (tenths, 10)])
  {
    SplitFormatRational(degrees, minutes, tenths);
    DecodeFormattedPairs(degrees, minutes, tenths);
  }

  /** Each pair decodes to its numerator and denominator. */
  lemma DecodeFormattedPairs(degrees: int, minutes: int, tenths: int)
    ensures DecodePairs([PairText(degrees, "1"), PairText(minutes, "1"), PairText(tenths, "10")])
            == Some([(degrees, 1), (minutes, 1), (tenths, 10)])
  {
    DenominatorsParse();
    DecodeOnePair(degrees, "1", 1);
    DecodeOnePair(minutes, "1", 1);
    DecodeOnePair(tenths, "10", 10);
    DecodeThreePairs(PairText(degrees, "1"), PairText(minutes, "1"), PairText(tenths, "10"),
                     (degrees, 1), (minutes, 1), (tenths, 10));
  }

  /** Splitting the rational text on ',' gives back its three pairs. */
  lemma SplitFormatRational(degrees: int, minutes: int, tenths: int)
    ensures Split(FormatRational(degrees, minutes, tenths), ',')
            == [PairText(degrees, "1"), PairText(minutes, "1"), PairText(tenths, "10")]
  {
    var parts := [PairText(degrees, "1"), PairText(minutes, "1"), PairText(tenths, "10")];
    PairTextNoComma(degrees, "1");
    PairTextNoComma(minutes, "1");
    PairTextNoComma(tenths, "10");
    SplitJoin(parts, ',');
  }

  lemma PairTextNoComma(n: int, den: string)
    requires ',' !in den
    ensures ',' !in PairText(n, den)
  {
    var num := IntToString(n);
    assert ',' !in num;
  }

  /** The hemisphere reference and rational triple for one axis, as the
      source computes them: the reference follows the numeric sign of the
      degree field, whose magnitude is written in its place; minutes and
      seconds are written as they are. */
  function EncodeDms(axis: Axis, a: Dms): (tag: GpsTag)
    ensures tag.ref == NegativeRef(axis) <==> a.degrees < 0.0
    ensures tag.ref == PositiveRef(axis) <==> a.degrees >= 0.0
  {
    var ref := if a.degrees < 0.0 then NegativeRef(axis) else PositiveRef(axis);
    var degrees := Abs(a.degrees);
    GpsTag(ref, FormatRational(Trunc(degrees), Trunc(a.minutes), Trunc(a.seconds * 10.0)))
  }

  /** The rational text of a tag reads back as the magnitude of the degree
      field, the minutes, and the seconds in tenths, each truncated toward
      zero, over 1, 1 and 10. */
  lemma EncodeDmsRational(axis: Axis, a: Dms)
    ensures DecodeRationals(EncodeDms(axis, a).rational)
            == Some([(Trunc(Abs(a.degrees)), 1), (Trunc(a.minutes), 1), (Trunc(a.seconds * 10.0), 10)])
  {
    var d, m, t := Trunc(Abs(a.degrees)), Trunc(a.minutes), Trunc(a.seconds * 10.0);
    EncodeDmsText(axis, a);
    DecodeFormatRational(d, m, t);
  }

  lemma EncodeDmsText(axis: Axis, a: Dms)
    ensures EncodeDms(axis, a).rational == FormatRational(Trunc(Abs(a.degrees)), Trunc(a.minutes), Trunc(a.seconds * 10.0))
  {
  }

  /** Size of the angle in degrees, ignoring the degree field's sign. */
  function Magnitude(a: Dms): real
  {
    Abs(a.degrees) + a.minutes / 60.0 + a.seconds / 3600.0
  }

  /** Value in degrees of three numerator/denominator pairs read as degrees,
      minutes and seconds. */
  function TripleDegrees(q: seq<(int, nat)>): real
    requires |q| == 3 && q[0].1 > 0 && q[1].1 > 0 && q[2].1 > 0
  {
    q[0].0 as real / q[0].1 as real
    + (q[1].0 as real / q[1].1 as real) / 60.0
    + (q[2].0 as real / q[2].1 as real) / 3600.0
  }

  /** For whole degrees and whole minutes, as the orbit library prints them,
      the tag loses only what lies beyond the first decimal of the seconds: it
      falls short of the angle's size by less than a tenth of an arc-second. */
  lemma TagWithinTenthOfSecond(axis: Axis, a: Dms)
    requires a.degrees == a.degrees.Floor as real
    requires a.minutes == a.minutes.Floor as real
    requires a.seconds >= 0.0
    ensures DecodeRationals(EncodeDms(axis, a).rational).Some?
    ensures var q := DecodeRationals(EncodeDms(axis, a).rational).value;
            && |q| == 3 && q[0].1 > 0 && q[1].1 > 0 && q[2].1 > 0
            && TripleDegrees(q) <= Magnitude(a) < TripleDegrees(q) + 1.0 / 36000.0
  {
    var d := Abs(a.degrees);
    WholeTrunc(a.degrees);
    WholeTrunc(a.minutes);
    var t := Trunc(a.seconds * 10.0);
    EncodeDmsRational(axis, a);
    var q := DecodeRationals(EncodeDms(axis, a).rational).value;
    assert q == [(Trunc(d), 1), (Trunc(a.minutes), 1), (t, 10)];
    TripleOfWholeParts(Trunc(d), Trunc(a.minutes), t);
  }

  lemma TripleOfWholeParts(degrees: int, minutes: int, tenths: int)
    ensures TripleDegrees([(degrees, 1), (minutes, 1), (tenths, 10)])
            == degrees as real + minutes as real / 60.0 + tenths as real / 36000.0
  {
  }

  /** A whole number, or its magnitude, truncates to itself. */
  lemma WholeTrunc(x: real)
    requires x == x.Floor as real
    ensures Trunc(x) as real == x
    ensures Trunc(Abs(x)) as real == Abs(x)
  {
    assert (-x).Floor == -(x.Floor);
  }

  /** The encoding of one angle text; a text that does not parse produces no
      tag. */
  function GpsTagFor(axis: Axis, text: string): (r: Result<GpsTag, ParseError>)
    ensures r.Ok? <==> ParseDms(text).Ok?
    ensures r.Err? ==> r.error == ParseDms(text).error
    ensures r.Ok? ==> (r.value.ref == NegativeRef(axis) <==> ParseDms(text).value.degrees < 0.0)
    ensures r.Ok? ==> (r.value.ref == PositiveRef(axis) <==> ParseDms(text).value.degrees >= 0.0)
    ensures r.Ok? ==> r.value.ref in {PositiveRef(axis), NegativeRef(axis)}
    ensures r.Ok? ==> r.value.rational == EncodeDms(axis, ParseDms(text).value).rational
  {
    match ParseDms(text)
    case Err(e) => Err(e)
    case Ok(a) => Ok(EncodeDms(axis, a))
  }

  /** Both tags of one sample, as (longitude tag, latitude tag), as the
      source writes them. The longitude text is encoded first, so its error
      is the one reported when both texts are malformed. Each reference is
      the negative one exactly when the parsed degree field is below zero. */
  function GetLatLonTags(sublong: string, sublat: string): (r: Result<(GpsTag, GpsTag), ParseError>)
    ensures r.Ok? <==> ParseDms(sublong).Ok? && ParseDms(sublat).Ok?
    ensures ParseDms(sublong).Err? ==> r == Err(ParseDms(sublong).error)
    ensures ParseDms(sublong).Ok? && ParseDms(sublat).Err? ==> r == Err(ParseDms(sublat).error)
    ensures r.Ok? ==> r.value.0.ref in {"E", "W"} && r.value.1.ref in {"N", "S"}
    ensures r.Ok? ==> && (r.value.0.ref == "W" <==> ParseDms(sublong).value.degrees < 0.0)
                      && (r.value.1.ref == "S" <==> ParseDms(sublat).value.degrees < 0.0)
    ensures r.Ok? ==> && r.value.0.rational == EncodeDms(Longitude, ParseDms(sublong).value).rational
                      && r.value.1.rational == EncodeDms(Latitude, ParseDms(sublat).value).rational
  {
    match GpsTagFor(Longitude, sublong)
    case Err(e) => Err(e)
    case Ok(lonTag) =>
      match GpsTagFor(Latitude, sublat)
      case Err(e) => Err(e)
      case Ok(latTag) => Ok((lonTag, latTag))
  }

  /** The corrected pair of tags: the hemisphere of each tag is the sign of
      the angle its text denotes (see GpsTagForSigned); the rational triples
      and the error order are the source's. */
  function GetLatLonTagsSigned(sublong: string, sublat: string): (r: Result<(GpsTag, GpsTag), ParseError>)
    ensures r.Ok? <==> ParseDms(sublong).Ok? && ParseDms(sublat).Ok?
    ensures ParseDms(sublong).Err? ==> r == Err(ParseDms(sublong).error)
    ensures ParseDms(sublong).Ok? && ParseDms(sublat).Err? ==> r == Err(ParseDms(sublat).error)
    ensures r.Ok? ==> r.value.0.ref in {"E", "W"} && r.value.1.ref in {"N", "S"}
    ensures r.Ok? ==> && r.value.0.rational == EncodeDms(Longitude, ParseDms(sublong).value).rational
                      && r.value.1.rational == EncodeDms(Latitude, ParseDms(sublat).value).rational
    ensures r.Ok? && ParseDms(sublong).value.minutes >= 0.0 && ParseDms(sublong).value.seconds >= 0.0 ==>
              (r.value.0.ref == "W" <==> SignedDegrees(WrittenNegative(sublong), ParseDms(sublong).value) < 0.0)
    ensures r.Ok? && ParseDms(sublat).value.minutes >= 0.0 && ParseDms(sublat).value.seconds >= 0.0 ==>
              (r.value.1.ref == "S" <==> SignedDegrees(WrittenNegative(sublat), ParseDms(sublat).value) < 0.0)
  {
    match GpsTagForSigned(Longitude, sublong)
    case Err(e) => Err(e)
    case Ok(lonTag) =>
      match GpsTagForSigned(Latitude, sublat)
      case Err(e) => Err(e)
      case Ok(latTag) => Ok((lonTag, latTag))
  }

  /** Away from a zero degree field, the corrected pair of tags is exactly
      the pair the source writes. */
  lemma GetLatLonTagsAgreesOffZeroDegrees(sublong: string, sublat: string)
    requires ParseDms(sublong).Ok? && ParseDms(sublong).value.degrees != 0.0
    requires ParseDms(sublong).value.minutes >= 0.0 && ParseDms(sublong).value.seconds >= 0.0
    requires ParseDms(sublat).Ok? && ParseDms(sublat).value.degrees != 0.0
    requires ParseDms(sublat).value.minutes >= 0.0 && ParseDms(sublat).value.seconds >= 0.0
    ensures GetLatLonTagsSigned(sublong, sublat) == GetLatLonTags(sublong, sublat)
  {
    SignedAgreesOffZeroDegrees(Longitude, sublong);
    SignedAgreesOffZeroDegrees(Latitude, sublat);
  }

  /** The source's reading of an angle whose degree field is "-0": the
      degree field is numerically zero, so a position half a degree west of
      Greenwich is tagged east. */
  lemma NegativeZeroDegreesTaggedEast()
    ensures GpsTagFor(Longitude, "-0:30:00") == Ok(GpsTag("E", "0/1,30/1,0/10"))
    ensures ParseDms("-0:30:00").Ok? && SignedDegrees(true, ParseDms("-0:30:00").value) == -0.5
  {
    var a := Dms(0.0, 30.0, 0.0);
    MinusZeroParses();
    MinusZeroFormats();
    MinusZeroTruncs(a);
    TagOfParsed(Longitude, "-0:30:00", a, "0/1,30/1,0/10");
  }

  lemma MinusZeroTruncs(a: Dms)
    requires a == Dms(0.0, 30.0, 0.0)
    ensures Trunc(Abs(a.degrees)) == 0 && Trunc(a.minutes) == 30 && Trunc(a.seconds * 10.0) == 0
  {
  }

  /** The tag of a text that parses to the fields a. */
  lemma TagOfParsed(axis: Axis, text: string, a: Dms, rational: string)
    requires ParseDms(text) == Ok(a)
    requires FormatRational(Trunc(Abs(a.degrees)), Trunc(a.minutes), Trunc(a.seconds * 10.0)) == rational
    ensures GpsTagFor(axis, text)
            == Ok(GpsTag(if a.degrees < 0.0 then NegativeRef(axis) else PositiveRef(axis), rational))
  {
    EncodedTag(axis, a, rational);
    assert GpsTagFor(axis, text) == Ok(EncodeDms(axis, a));
  }

  lemma EncodedTag(axis: Axis, a: Dms, rational: string)
    requires FormatRational(Trunc(Abs(a.degrees)), Trunc(a.minutes), Trunc(a.seconds * 10.0)) == rational
    ensures EncodeDms(axis, a)
            == GpsTag(if a.degrees < 0.0 then NegativeRef(axis) else PositiveRef(axis), rational)
  {
  }

  lemma MinusZeroParses()
    ensures ParseDms("-0:30:00") == Ok(Dms(0.0, 30.0, 0.0))
  {
    MinusZeroFields();
    MinusZeroText();
    FieldsOfExample("-0:30:00", "-0", "30", "00", 0.0, 30.0, 0.0);
  }

  lemma MinusZeroText()
    ensures "-0:30:00" == "-0" + ":" + "30" + ":" + "00"
    ensures ':' !in "-0" && ':' !in "30" && ':' !in "00"
  {
  }

  lemma MinusZeroFields()
    ensures ParseNumber("-0") == Some(0.0)
    ensures ParseNumber("30") == Some(30.0)
    ensures ParseNumber("00") == Some(0.0)
  {
    NegativeZeroField();
    ThirtyField();
    DoubleZeroField();
  }

  lemma NegativeZeroField()
    ensures ParseNumber("-0") == Some(0.0)
  {
    assert DigitsValue("0") == 0;
    assert "-0"[1..] == "0";
    ParseNumberOfNegatedDigits("-0");
  }

  lemma ThirtyField()
    ensures ParseNumber("30") == Some(30.0)
  {
    DecimalThirty();
    ParseNumberOfDigits("30");
  }

  lemma DoubleZeroField()
    ensures ParseNumber("00") == Some(0.0)
  {
    assert DigitsValue("00") == 0 by {
      assert "00"[..1] == "0";
    }
    ParseNumberOfDigits("00");
  }

  lemma DecimalThirty()
    ensures DigitsValue("30") == 30
    ensures IntToString(30) == "30"
  {
    assert "30"[..1] == "3";
    assert NatToString(3) == "3";
  }

  lemma MinusZeroFormats()
    ensures FormatRational(0, 30, 0) == "0/1,30/1,0/10"
  {
    DecimalThirty();
    assert IntToString(0) == "0";
  }

  /** The fields of a three-field example text read as the given numbers. */
  lemma FieldsOfExample(text: string, x: string, y: string, z: string, dx: real, dy: real, dz: real)
    requires text == x + ":" + y + ":" + z
    requires ':' !in x && ':' !in y && ':' !in z
    requires ParseNumber(x) == Some(dx) && ParseNumber(y) == Some(dy) && ParseNumber(z) == Some(dz)
    ensures ParseDms(text) == Ok(Dms(dx, dy, dz))
  {
    JoinThree(x, y, z, ':');
    SplitJoin([x, y, z], ':');
    assert Split(text, ':') == [x, y, z];
    ParseThreeFields(x, y, z, dx, dy, dz);
  }

  lemma ParseThreeFields(x: string, y: string, z: string, dx: real, dy: real, dz: real)
    requires ParseNumber(x) == Some(dx) && ParseNumber(y) == Some(dy) && ParseNumber(z) == Some(dz)
    ensures ParseFields([x, y, z]) == Ok([dx, dy, dz])
  {
    assert [z][1..] == [];
    assert [dz] + [] == [dz];
    assert ParseFields([z]) == Ok([dz]);
    assert [y, z][1..] == [z];
    assert [dy] + [dz] == [dy, dz];
    assert ParseFields([y, z]) == Ok([dy, dz]);
    assert [x, y, z][1..] == [y, z];
    assert [dx] + [dy, dz] == [dx, dy, dz];
  }

  /** Whether the angle text carries a minus sign. The sign belongs to the
      whole angle, also when its degree field is zero. */
  predicate WrittenNegative(text: string)
  {
    |text| >= 1 && text[0] == '-'
  }

  /** The angle, in signed degrees, that a text with the given written sign
      and parsed fields denotes. */
  function SignedDegrees(negative: bool, a: Dms): real
  {
    if negative then -Magnitude(a) else Magnitude(a)
  }

  /** The corrected encoding: the hemisphere follows the sign of the angle the
      text denotes rather than the numeric sign of its degree field. The
      rational triple is the source's. */
  function EncodeDmsSigned(axis: Axis, negative: bool, a: Dms): (tag: GpsTag)
    ensures a.minutes >= 0.0 && a.seconds >= 0.0 ==>
              (tag.ref == NegativeRef(axis) <==> SignedDegrees(negative, a) < 0.0)
    ensures tag.ref == PositiveRef(axis) || tag.ref == NegativeRef(axis)
    ensures tag.rational == EncodeDms(axis, a).rational
  {
    var west := negative && Magnitude(a) > 0.0;
    GpsTag(if west then NegativeRef(axis) else PositiveRef(axis), EncodeDms(axis, a).rational)
  }

  /** The corrected encoding of one angle text. */
  function GpsTagForSigned(axis: Axis, text: string): (r: Result<GpsTag, ParseError>)
    ensures r.Ok? <==> ParseDms(text).Ok?
    ensures r.Err? ==> r.error == ParseDms(text).error
    ensures r.Ok? && ParseDms(text).value.minutes >= 0.0 && ParseDms(text).value.seconds >= 0.0 ==>
              (r.value.ref == NegativeRef(axis) <==> SignedDegrees(WrittenNegative(text), ParseDms(text).value) < 0.0)
    ensures r.Ok? ==> r.value.ref in {PositiveRef(axis), NegativeRef(axis)}
    ensures r.Ok? ==> r.value.rational == EncodeDms(axis, ParseDms(text).value).rational
  {
    match ParseDms(text)
    case Err(e) => Err(e)
    case Ok(a) => Ok(EncodeDmsSigned(axis, WrittenNegative(text), a))
  }

  /** The correction changes nothing unless the degree field is zero: a
      non-zero degree field is negative exactly when the text carries a minus
      sign. */
  lemma SignedAgreesOffZeroDegrees(axis: Axis, text: string)
    requires ParseDms(text).Ok? && ParseDms(text).value.degrees != 0.0
    requires ParseDms(text).value.minutes >= 0.0 && ParseDms(text).value.seconds >= 0.0
    ensures GpsTagForSigned(axis, text) == GpsTagFor(axis, text)
  {
    SplitFirstPiece(text, ':');
    var field := Split(text, ':')[0];
    var a := ParseDms(text).value;
    assert |field| >= 1;
    assert text[0] == field[0];
    assert WrittenNegative(text) <==> a.degrees < 0.0;
  }

  /** The corrected encoding tags the same "-0" angle west. */
  lemma NegativeZeroDegreesTaggedWestWhenSigned()
    ensures GpsTagForSigned(Longitude, "-0:30:00") == Ok(GpsTag("W", "0/1,30/1,0/10"))
  {
    NegativeZeroDegreesTaggedEast();
  }

  /** A southern latitude with fractional seconds. */
  lemma SouthernLatitudeExample()
    ensures GpsTagFor(Latitude, "-45:30:15.5") == Ok(GpsTag("S", "45/1,30/1,155/10"))
  {
    var a := Dms(-45.0, 30.0, 15.5);
    SouthernExampleParses();
    SouthernExampleFormats();
    SouthernTruncs(a);
    TagOfParsed(Latitude, "-45:30:15.5", a, "45/1,30/1,155/10");
  }

  lemma SouthernTruncs(a: Dms)
    requires a == Dms(-45.0, 30.0, 15.5)
    ensures Trunc(Abs(a.degrees)) == 45 && Trunc(a.minutes) == 30 && Trunc(a.seconds * 10.0) == 155
  {
  }

  lemma SouthernExampleParses()
    ensures ParseDms("-45:30:15.5") == Ok(Dms(-45.0, 30.0, 15.5))
  {
    WholeFieldsParse();
    FractionalSecondsParse();
    SouthernExampleText();
    FieldsOfExample("-45:30:15.5", "-45", "30", "15.5", -45.0, 30.0, 15.5);
  }

  lemma SouthernExampleText()
    ensures "-45:30:15.5" == "-45" + ":" + "30" + ":" + "15.5"
    ensures ':' !in "-45" && ':' !in "30" && ':' !in "15.5"
  {
  }

  lemma WholeFieldsParse()
    ensures ParseNumber("-45") == Some(-45.0) && ParseNumber("30") == Some(30.0)
  {
    DecimalFortyFive();
    assert "-45"[1..] == "45";
    ParseNumberOfNegatedDigits("-45");
    DecimalThirty();
    ParseNumberOfDigits("30");
  }

  lemma DecimalFortyFive()
    ensures DigitsValue("45") == 45
    ensures IntToString(45) == "45"
  {
    assert "45"[..1] == "4";
    assert NatToString(4) == "4";
  }

  lemma DecimalFifteen()
    ensures NatToString(15) == "15"
  {
    assert NatToString(1) == "1";
  }

  lemma DecimalOneFiftyFive()
    ensures IntToString(155) == "155"
  {
    DecimalFifteen();
  }

  lemma FractionalSecondsParse()
    ensures ParseNumber("15.5") == Some(15.5)
  {
    DecimalFifteen();
    assert "15.5"[..2] == "15";
    ParseNumberOfTenths("15.5", 2);
  }

  lemma SouthernExampleFormats()
    ensures FormatRational(45, 30, 155) == "45/1,30/1,155/10"
  {
    DecimalFortyFive();
    DecimalThirty();
    DecimalOneFiftyFive();
  }
}

=== FILE: geometry.dfy ===
/** Plane geometry on (longitude, latitude) pairs: polygons as implicitly
    closed vertex chains, and the even-odd crossing test that decides whether
    a point lies inside one.

    Boundary convention. A point is inside exactly when a ray running due east
    from it crosses the boundary an odd number of times, where an edge is
    crossed when one endpoint lies strictly north of the point's parallel and
    the other on or south of it, and the edge meets that parallel strictly east
    of the point. Nothing else is special-cased, so a point lying exactly on an
    edge is decided by the same rule. A point on a non-horizontal edge is
    inside exactly when the outline continues immediately east of it, and a
    point inside a horizontal edge is inside exactly when the outline lies
    immediately north of it. So a sloping southern side can come out outside:
    for the triangle (0, 0), (10, 5), (0, 10), the point (4, 2) on the side
    from (0, 0) to (10, 5) is not contained. */
module Geometry {

  /** A point of the map plane, in decimal degrees. Longitude is always the
      first field and latitude the second, as in every outline literal. */
  datatype Vertex = Vertex(lon: real, lat: real)

  /** A directed boundary edge. */
  datatype Segment = Segment(src: Vertex, dst: Vertex)

  /** An ordered vertex chain; the last vertex is joined back to the first. */
  type Polygon = seq<Vertex>

  /** Index of the vertex after vertex i in a closed chain of n vertices. */
  function Next(i: nat, n: nat): nat
    requires i < n
  {
    if i + 1 < n then i + 1 else 0
  }

  /** The i-th edge of the closed chain: from vertex i to its successor,
      wrapping from the last vertex to the first. */
  function Edge(poly: Polygon, i: nat): Segment
    requires i < |poly|
  {
    Segment(poly[i], poly[Next(i, |poly|)])
  }

  function Edges(poly: Polygon): (es: seq<Segment>)
    ensures |es| == |poly|
    ensures forall i :: 0 <= i < |poly| ==> es[i] == Edge(poly, i)
  {
    seq(|poly|, i requires 0 <= i < |poly| => Edge(poly, i))
  }

  /** One endpoint of e is strictly north of p's parallel, the other is not. */
  predicate Straddles(e: Segment, p: Vertex)
  {
    (e.src.lat > p.lat) != (e.dst.lat > p.lat)
  }

  /** Longitude at which the line through e meets the parallel through p. */
  function CrossingLon(e: Segment, p: Vertex): real
    requires e.src.lat != e.dst.lat
  {
    e.src.lon + (p.lat - e.src.lat) * (e.dst.lon - e.src.lon) / (e.dst.lat - e.src.lat)
  }

  /** The eastward ray from p crosses e. */
  predicate CrossesEast(e: Segment, p: Vertex)
  {
    Straddles(e, p) && p.lon < CrossingLon(e, p)
  }

  /** Number of edges in es that the eastward ray from p crosses. */
  function Crossings(es: seq<Segment>, p: Vertex): nat
  {
    if |es| == 0 then 0
    else (if CrossesEast(es[0], p) then 1 else 0) + Crossings(es[1..], p)
  }

  /** Even-odd containment over the implicitly closed chain. */
  predicate Contains(poly: Polygon, p: Vertex)
  {
    Crossings(Edges(poly), p) % 2 == 1
  }

  /** The sequence read starting at position k and wrapping around. */
  function Rotate<T>(s: seq<T>, k: nat): (r: seq<T>)
    requires k <= |s|
    ensures |r| == |s|
    ensures forall i :: 0 <= i < |s| - k ==> r[i] == s[i + k]
    ensures forall i :: |s| - k <= i < |s| ==> r[i] == s[i + k - |s|]
  {
    s[k..] + s[..k]
  }

  /** Crossing counts add up over a split edge list. */
  lemma {:induction false} CrossingsAppend(a: seq<Segment>, b: seq<Segment>, p: Vertex)
    ensures Crossings(a + b, p) == Crossings(a, p) + Crossings(b, p)
  {
    if |a| > 0 {
      assert (a + b)[1..] == a[1..] + b;
      CrossingsAppend(a[1..], b, p);
    } else {
      assert a + b == b;
    }
  }

  /** No crossing at all exactly when no single edge is crossed. */
  lemma {:induction false} CrossingsZero(es: seq<Segment>, p: Vertex)
    ensures Crossings(es, p) == 0 <==> forall i :: 0 <= i < |es| ==> !CrossesEast(es[i], p)
  {
    if |es| > 0 {
      CrossingsZero(es[1..], p);
      assert forall i :: 1 <= i < |es| ==> es[i] == es[1..][i - 1];
    }
  }

  /** The crossing count does not depend on where the edge list starts. */
  lemma CrossingsRotate(es: seq<Segment>, k: nat, p: Vertex)
    requires k <= |es|
    ensures Crossings(Rotate(es, k), p) == Crossings(es, p)
  {
    CrossingsAppend(es[k..], es[..k], p);
    CrossingsAppend(es[..k], es[k..], p);
    assert es[..k] + es[k..] == es;
  }

  /** Position i of a sequence rotated by k holds the original's position
      Shift(i, k, n). */
  function Shift(i: nat, k: nat, n: nat): nat
    requires i < n && k <= n
  {
    if i + k < n then i + k else i + k - n
  }

  /** Rotating the vertex list rotates the edge list by the same amount. */
  lemma EdgesRotate(poly: Polygon, k: nat)
    requires k <= |poly|
    ensures Edges(Rotate(poly, k)) == Rotate(Edges(poly), k)
  {
    var n := |poly|;
    var lhs := Edges(Rotate(poly, k));
    var rhs := Rotate(Edges(poly), k);
    forall i | 0 <= i < n
      ensures lhs[i] == rhs[i]
    {
      assert Rotate(poly, k)[i] == poly[Shift(i, k, n)];
      assert rhs[i] == Edges(poly)[Shift(i, k, n)];
      assert Next(Shift(i, k, n), n) == Shift(Next(i, n), k, n);
    }
  }

  /** Containment is a property of the closed chain, not of the vertex that
      happens to be listed first. */
  lemma ContainsRotationInvariant(poly: Polygon, k: nat, p: Vertex)
    requires k <= |poly|
    ensures Contains(Rotate(poly, k), p) <==> Contains(poly, p)
  {
    EdgesRotate(poly, k);
    CrossingsRotate(Edges(poly), k, p);
  }

  lemma ProductNonnegative(x: real, y: real)
    requires x >= 0.0 && y >= 0.0
    ensures x * y >= 0.0
  {
  }

  /** A factor of a non-negative product with a positive cofactor is
      non-negative. */
  lemma FactorNonnegative(x: real, y: real)
    requires y > 0.0 && x * y >= 0.0
    ensures x >= 0.0
  {
  }

  /** A quotient whose numerator lies between zero and its denominator is a
      fraction in [0, 1]. */
  lemma QuotientInUnit(num: real, den: real)
    requires den != 0.0
    requires 0.0 <= num <= den || den <= num <= 0.0
    ensures 0.0 <= num / den <= 1.0
  {
    var t := num / den;
    assert t * den == num;
    if den > 0.0 {
      FactorNonnegative(t, den);
      assert (1.0 - t) * den == den - num;
      FactorNonnegative(1.0 - t, den);
    } else {
      assert t * -den == -num;
      FactorNonnegative(t, -den);
      assert (1.0 - t) * -den == num - den;
      FactorNonnegative(1.0 - t, -den);
    }
  }

  /** The parallel through p meets a straddling edge at this fraction of
      the way from its start to its end. */
  function CrossingFraction(e: Segment, p: Vertex): (t: real)
    requires Straddles(e, p)
    ensures 0.0 <= t <= 1.0
    ensures CrossingLon(e, p) == e.src.lon + t * (e.dst.lon - e.src.lon)
  {
    QuotientInUnit(p.lat - e.src.lat, e.dst.lat - e.src.lat);
    (p.lat - e.src.lat) / (e.dst.lat - e.src.lat)
  }

  /** A point of a segment, given by its fraction t along it, is no further
      east than the easternmost endpoint. */
  lemma InterpolationBelowMax(a: real, b: real, t: real, x: real)
    requires 0.0 <= t <= 1.0
    requires x == a + t * (b - a)
    ensures x <= a || x <= b
  {
    if a <= b {
      ProductNonnegative(1.0 - t, b - a);
      assert b - x == (1.0 - t) * (b - a);
    } else {
      ProductNonnegative(t, a - b);
      assert a - x == t * (a - b);
    }
  }

  /** The parallel through p meets a straddling edge no further east than
      the edge's easternmost endpoint. */
  lemma CrossingBelowMax(e: Segment, p: Vertex)
    requires Straddles(e, p)
    ensures CrossingLon(e, p) <= e.src.lon || CrossingLon(e, p) <= e.dst.lon
  {
    InterpolationBelowMax(e.src.lon, e.dst.lon, CrossingFraction(e, p), CrossingLon(e, p));
  }

  /** An edge crossed by the eastward ray from p has an endpoint strictly north
      of p, one on or south of p, and one strictly east of p. */
  lemma CrossedEdgeSurroundsPoint(e: Segment, p: Vertex)
    requires CrossesEast(e, p)
    ensures e.src.lat > p.lat || e.dst.lat > p.lat
    ensures e.src.lat <= p.lat || e.dst.lat <= p.lat
    ensures e.src.lon > p.lon || e.dst.lon > p.lon
  {
    CrossingBelowMax(e, p);
  }

  /** The contrapositive view, per edge: an edge with both endpoints on one
      side of p's parallel, or both on or west of p's meridian, is not crossed
      by the eastward ray from p. */
  lemma EdgeAwayNotCrossed(e: Segment, p: Vertex)
    requires || (e.src.lat > p.lat && e.dst.lat > p.lat)
             || (e.src.lat <= p.lat && e.dst.lat <= p.lat)
             || (e.src.lon <= p.lon && e.dst.lon <= p.lon)
    ensures !CrossesEast(e, p)
  {
    if Straddles(e, p) {
      CrossingBelowMax(e, p);
    }
  }

  /** The boundary convention at work: a point on the sloping southern side
      of a triangle meets that side exactly at its own longitude, so the side
      is not crossed, and no other side is crossed east of it. */
  lemma SlopingSouthernSideOutside()
    ensures !Contains([Vertex(0.0, 0.0), Vertex(10.0, 5.0), Vertex(0.0, 10.0)], Vertex(4.0, 2.0))
  {
    var poly := [Vertex(0.0, 0.0), Vertex(10.0, 5.0), Vertex(0.0, 10.0)];
    var es := Edges(poly);
    assert es == [Segment(poly[0], poly[1]), Segment(poly[1], poly[2]), Segment(poly[2], poly[0])];
    // (0, 0) to (10, 5) meets latitude 2 at longitude 4, the point's own
    assert !CrossesEast(es[0], Vertex(4.0, 2.0));
    // (10, 5) to (0, 10) lies wholly north of latitude 2
    assert !CrossesEast(es[1], Vertex(4.0, 2.0));
    // (0, 10) to (0, 0) meets latitude 2 at longitude 0, west of the point
    assert !CrossesEast(es[2], Vertex(4.0, 2.0));
    CrossingsZero(es, Vertex(4.0, 2.0));
  }

  /** A point north of every vertex, on or south of every vertex, or on or
      east of every vertex is outside the outline. */
  lemma OutsideExtentNotContained(poly: Polygon, p: Vertex)
    requires || (forall i :: 0 <= i < |poly| ==> poly[i].lat > p.lat)
             || (forall i :: 0 <= i < |poly| ==> poly[i].lat <= p.lat)
             || (forall i :: 0 <= i < |poly| ==> poly[i].lon <= p.lon)
    ensures !Contains(poly, p)
  {
    var es := Edges(poly);
    forall i | 0 <= i < |es|
      ensures !CrossesEast(es[i], p)
    {
      assert es[i] == Segment(poly[i], poly[Next(i, |poly|)]);
      EdgeAwayNotCrossed(es[i], p);
    }
    CrossingsZero(es, p);
  }

  /** A contained point lies within the outline's extent: some vertex is
      strictly north of it, some vertex is not, and some vertex is strictly
      east of it. */
  lemma ContainedWithinExtent(poly: Polygon, p: Vertex)
    requires Contains(poly, p)
    ensures exists i :: 0 <= i < |poly| && poly[i].lat > p.lat
    ensures exists i :: 0 <= i < |poly| && poly[i].lat <= p.lat
    ensures exists i :: 0 <= i < |poly| && poly[i].lon > p.lon
  {
    var es := Edges(poly);
    CrossingsZero(es, p);
    var i :| 0 <= i < |es| && CrossesEast(es[i], p);
    assert es[i] == Segment(poly[i], poly[Next(i, |poly|)]);
    CrossedEdgeSurroundsPoint(es[i], p);
  }

  /** The vertex scan the containment test performs: each vertex is paired
      with the one listed before it (the last vertex for the first), and every
      crossed edge flips the parity. */
  method ContainsPoint(poly: Polygon, p: Vertex) returns (inside: bool)
    ensures inside <==> Contains(poly, p)
  {
    if |poly| == 0 {
      return false;
    }
    var n := |poly|;
    ghost var order := Rotate(Edges(poly), n - 1);
    inside := false;
    var j := n - 1;
    for i := 0 to n
      invariant j == if i == 0 then n - 1 else i - 1
      invariant inside <==> Crossings(order[..i], p) % 2 == 1
    {
      var e := Segment(poly[j], poly[i]);
      ScanOrderEdge(poly, i);
      if Straddles(e, p) && p.lon < CrossingLon(e, p) {
        inside := !inside;
      }
      CrossingsPrefixStep(order, i, p);
      j := i;
    }
    assert order[..n] == order;
    CrossingsRotate(Edges(poly), n - 1, p);
  }

  /** In the scan order, edge i runs from the vertex listed before vertex i
      to vertex i. */
  lemma ScanOrderEdge(poly: Polygon, i: nat)
    requires i < |poly|
    ensures Rotate(Edges(poly), |poly| - 1)[i] == Segment(poly[if i == 0 then |poly| - 1 else i - 1], poly[i])
  {
    var n := |poly|;
    var j := if i == 0 then n - 1 else i - 1;
    assert Rotate(Edges(poly), n - 1)[i] == Edges(poly)[Shift(i, n - 1, n)];
    assert Shift(i, n - 1, n) == j;
    assert Next(j, n) == i;
  }

  /** Extending a prefix of an edge list by one edge adds that edge's
      crossing, if any. */
  lemma CrossingsPrefixStep(es: seq<Segment>, i: nat, p: Vertex)
    requires i < |es|
    ensures Crossings(es[..i + 1], p) == Crossings(es[..i], p) + (if CrossesEast(es[i], p) then 1 else 0)
  {
    assert es[..i + 1] == es[..i] + [es[i]];
    CrossingsAppend(es[..i], [es[i]], p);
  }
}

=== FILE: numerals.dfy ===
/** Decimal numerals: reading the fields of a sexagesimal angle as numbers, and
    writing integers the way the "%d" conversion does. */
module Numerals {
  import opened Results
  import opened Text

  predicate IsDigit(c: char)
  {
    '0' <= c <= '9'
  }

  predicate AllDigits(s: string)
  {
    forall i :: 0 <= i < |s| ==> IsDigit(s[i])
  }

  function DigitValue(c: char): nat
    requires IsDigit(c)
  {
    c as int - '0' as int
  }

  function DigitChar(d: nat): (c: char)
    requires d < 10
    ensures IsDigit(c) && DigitValue(c) == d
  {
    ('0' as int + d) as char
  }

  /** Value of a string of decimal digits, most significant first; the empty
      string is 0. */
  function DigitsValue(s: string): nat
    requires AllDigits(s)
  {
    if |s| == 0 then 0
    else DigitsValue(s[..|s| - 1]) * 10 + DigitValue(s[|s| - 1])
  }

  function Pow10(n: nat): (r: nat)
    ensures r >= 1
  {
    if n == 0 then 1 else 10 * Pow10(n - 1)
  }

  /** The decimal digits of n, without leading zeros. */
  function NatToString(n: nat): (s: string)
    ensures |s| >= 1 && AllDigits(s)
    ensures DigitsValue(s) == n
    ensures s[0] == '0' ==> s == "0"
  {
    if n < 10 then [DigitChar(n)]
    else
      var prefix := NatToString(n / 10);
      var s := prefix + [DigitChar(n % 10)];
      assert s[..|s| - 1] == prefix;
      s
  }

  /** What "%d" prints for an integer: a minus sign for negative values, then
      the digits of the magnitude. */
  function IntToString(i: int): (s: string)
    ensures |s| >= 1
    ensures forall k :: 0 <= k < |s| ==> IsDigit(s[k]) || s[k] == '-'
    ensures s[0] == '-' <==> i < 0
    ensures s[0] == '0' ==> s == "0"
    ensures i < 0 ==> |s| >= 2 && s[1] != '0'
  {
    if i < 0 then "-" + NatToString(-i) else NatToString(i)
  }

  /** A non-empty string of digits, read as a natural number. */
  function ParseNat(s: string): (r: Option<nat>)
    ensures r.Some? <==> |s| >= 1 && AllDigits(s)
  {
    if |s| >= 1 && AllDigits(s) then Some(DigitsValue(s)) else None
  }

  /** An optional minus sign followed by a non-empty string of digits. */
  function ParseInt(s: string): Option<int>
  {
    if |s| >= 1 && s[0] == '-' then
      match ParseNat(s[1..])
      case Some(n) => Some(-(n as int))
      case None => None
    else
      match ParseNat(s)
      case Some(n) => Some(n)
      case None => None
  }

  /** Reading back what "%d" printed gives the integer that was printed. */
  lemma ParseIntRoundTrip(i: int)
    ensures ParseInt(IntToString(i)) == Some(i)
  {
    if i < 0 {
      assert IntToString(i)[1..] == NatToString(-i);
    }
  }

  /** A numeral with no sign: digits, optionally with one decimal point, and
      at least one digit in all. */
  function ParseUnsigned(s: string): (r: Option<real>)
    ensures r.Some? ==> |s| >= 1 && r.value >= 0.0
  {
    var k := IndexOf(s, '.');
    var whole := s[..k];
    var frac := if k < |s| then s[k + 1..] else "";
    if AllDigits(whole) && AllDigits(frac) && |whole| + |frac| >= 1 then
      Some(DigitsValue(whole) as real + FractionValue(frac))
    else
      None
  }

  /** Value of the digits after a decimal point. */
  function FractionValue(f: string): (v: real)
    requires AllDigits(f)
    ensures 0.0 <= v
  {
    if |f| == 0 then 0.0 else DigitsValue(f) as real / Pow10(|f|) as real
  }

  /** The value float() gives a plain decimal numeral: an optional sign, then
      an unsigned numeral. A minus sign on a zero magnitude gives zero, so the
      only way to a negative value is a minus sign on a non-zero magnitude. */
  function ParseNumber(s: string): (r: Option<real>)
    ensures r.Some? ==> |s| >= 1
    ensures r.Some? && r.value < 0.0 ==> s[0] == '-'
    ensures r.Some? && s[0] == '-' ==> r.value <= 0.0
  {
    if |s| >= 1 && (s[0] == '-' || s[0] == '+') then
      match ParseUnsigned(s[1..])
      case Some(v) => Some(if s[0] == '-' then -v else v)
      case None => None
    else
      ParseUnsigned(s)
  }

  /** An integer printed by "%d" reads back as the same number. */
  lemma ParseNumberOfInteger(i: int)
    ensures ParseNumber(IntToString(i)) == Some(i as real)
  {
    var digits := NatToString(if i < 0 then -i else i);
    assert IndexOf(digits, '.') == |digits|;
    assert digits[..|digits|] == digits;
    if i < 0 {
      assert IntToString(i)[1..] == digits;
    }
  }

  /** A seconds field with one decimal digit after its point reads as the
      whole seconds plus that many tenths. The whole part is any non-empty
      string of digits, leading zeros included ("07.3"). */
  lemma ParseNumberOfTenths(s: string, k: nat)
    requires 1 <= k && |s| == k + 2 && s[k] == '.'
    requires AllDigits(s[..k]) && IsDigit(s[k + 1])
    ensures ParseNumber(s) == Some(DigitsValue(s[..k]) as real + DigitValue(s[k + 1]) as real / 10.0)
  {
    TenthFraction(s[k + 1..]);
    assert IsDigit(s[..k][0]);
    UnsignedWithPoint(s, k);
    NumberOfUnsigned(s);
  }

  /** One digit after the point is that many tenths. */
  lemma TenthFraction(f: string)
    requires |f| == 1 && IsDigit(f[0])
    ensures AllDigits(f) && FractionValue(f) == DigitValue(f[0]) as real / 10.0
  {
    assert f[..0] == [];
    assert DigitsValue(f) == DigitValue(f[0]);
    assert Pow10(1) == 10;
  }

  /** A numeral whose first '.' is at position k reads as the digits before
      it plus the fraction after it. */
  lemma UnsignedWithPoint(s: string, k: nat)
    requires 1 <= k < |s| && s[k] == '.'
    requires AllDigits(s[..k]) && AllDigits(s[k + 1..])
    ensures ParseUnsigned(s) == Some(DigitsValue(s[..k]) as real + FractionValue(s[k + 1..]))
  {
    assert forall j :: 0 <= j < k ==> s[j] == s[..k][j];
    assert IndexOf(s, '.') == k;
  }

  /** A string of digits with no decimal point reads as its value. */
  lemma UnsignedOfDigits(s: string)
    requires |s| >= 1 && AllDigits(s)
    ensures ParseUnsigned(s) == Some(DigitsValue(s) as real)
  {
    assert forall j :: 0 <= j < |s| ==> s[j] != '.';
    var k := IndexOf(s, '.');
    assert k == |s|;
    assert s[..k] == s;
  }

  /** A string that starts with a digit is read with no sign. */
  lemma NumberOfUnsigned(s: string)
    requires |s| >= 1 && IsDigit(s[0])
    ensures ParseNumber(s) == ParseUnsigned(s)
  {
  }

  /** A minus sign followed by digits reads as the negated value. */
  lemma ParseNumberOfNegatedDigits(t: string)
    requires |t| >= 2 && t[0] == '-' && AllDigits(t[1..])
    ensures ParseNumber(t) == Some(-(DigitsValue(t[1..]) as real))
  {
    UnsignedOfDigits(t[1..]);
  }

  /** A plain string of digits reads as its decimal value. */
  lemma ParseNumberOfDigits(s: string)
    requires |s| >= 1 && AllDigits(s)
    ensures ParseNumber(s) == Some(DigitsValue(s) as real)
  {
    UnsignedOfDigits(s);
    NumberOfUnsigned(s);
  }
}

=== FILE: oceans.dfy ===
/** The four ocean-basin outlines the classifier tests against, as constant
    data, with the invariants that data satisfies. The Pacific is split at the
    antimeridian into an eastern-hemisphere part and a western-hemisphere part
    so that neither outline has to wrap from +180 to -180 degrees of
    longitude. */
module Oceans {
  import opened Geometry

  datatype Basin = Atlantic | Indian | PacificEast | PacificWest

  /** The `atlanticOcean` outline, one display per row of the literal. */
  const AtlanticOutline: Polygon :=
    [Vertex(-24.6, 68.5), Vertex(25.3, 69.8), Vertex(5.7, 61.4), Vertex(4.6, 52.2), Vertex(-6.3, 48.4)]
    + [Vertex(-9.45, 43.5), Vertex(-9.63, 37.6), Vertex(-6.3, 35.5), Vertex(-10.5, 31.1), Vertex(-10.5, 28.4)]
    + [Vertex(-16.1, 24.5), Vertex(-17.2, 14.7), Vertex(-8.2, 4.1), Vertex(6.3, 3.6), Vertex(9.9, 3.4)]
    + [Vertex(9.0, -1.7), Vertex(13.8, -12.6), Vertex(11.7, -16.5), Vertex(14.5, -22.3), Vertex(16.1, -28.67)]
    + [Vertex(18.9, -34.5), Vertex(18.9, -55.7), Vertex(-66.0, -55.7), Vertex(-68.5, -50.4), Vertex(-58.6, -39.3), Vertex(-48.1, -28.2)]
    + [Vertex(-48.1, -25.7), Vertex(-41.6, -22.7), Vertex(-38.7, -17.4), Vertex(-39.5, -13.7), Vertex(-36.9, -12.5)]
    + [Vertex(-34.9, -10.4), Vertex(-35.0, -5.5), Vertex(-50.0, -0.1), Vertex(-53.0, 5.5), Vertex(-57.2, 6.1)]
    + [Vertex(-62.8, 10.9), Vertex(-67.8, 10.9), Vertex(-74.2, 10.8), Vertex(-76.9, 8.5), Vertex(-81.6, 9.4)]
    + [Vertex(-82.7, 14.0), Vertex(-87.4, 16.1), Vertex(-86.3, 21.6), Vertex(-90.2, 21.7), Vertex(-91.2, 19.2)]
    + [Vertex(-95.7, 18.8), Vertex(-97.1, 25.5), Vertex(-91.0, 28.9), Vertex(-84.0, 29.7), Vertex(-82.9, 27.3)]
    + [Vertex(-80.9, 24.9), Vertex(-79.3, 26.7), Vertex(-81.1, 31.3), Vertex(-75.4, 35.2), Vertex(-73.8, 40.3)]
    + [Vertex(-69.6, 41.4), Vertex(-65.1, 43.5), Vertex(-60.0, 45.8), Vertex(-52.2, 47.1), Vertex(-54.9, 52.9)]
    + [Vertex(-44.5, 60.1), Vertex(-38.8, 65.1)]

  /** The `indianOcean` outline, one display per row of the literal. */
  const IndianOutline: Polygon :=
    [Vertex(21.40, -34.15), Vertex(27.37, -33.71), Vertex(40.03, -15.61), Vertex(39.68, -3.50), Vertex(51.80, 10.16)]
    + [Vertex(58.84, 22.26), Vertex(65.69, 25.18), Vertex(71.32, 19.83), Vertex(77.47, 6.86), Vertex(80.24, 12.53)]
    + [Vertex(80.90, 15.85), Vertex(89.05, 22.12), Vertex(91.38, 22.08), Vertex(94.54, 17.74), Vertex(94.02, 16.02)]
    + [Vertex(97.00, 16.82), Vertex(98.19, 8.33), Vertex(100.78, 3.18), Vertex(94.98, 6.29), Vertex(105.0, -6.52)]
    + [Vertex(118.16, -9.26), Vertex(123.52, -11.25), Vertex(129.93, -11.08), Vertex(128.62, -14.51), Vertex(125.89, -3.57)]
    + [Vertex(118.51, -20.37), Vertex(113.06, -22.18), Vertex(115.26, -34.44), Vertex(123.52, -34.88), Vertex(130.99, -32.09)]
    + [Vertex(137.23, -36.59), Vertex(137.50, -66.47), Vertex(102.26, -65.79), Vertex(85.65, -66.22), Vertex(75.01, -69.50)]
    + [Vertex(69.04, -67.67), Vertex(54.18, -65.76), Vertex(37.48, -68.65)]

  /** The `pacificEast` outline, one display per row of the literal. */
  const PacificEastOutline: Polygon :=
    [Vertex(149.9, -37.8), Vertex(153.9, -28.5), Vertex(143.2, -11.5), Vertex(152.1, -0.9), Vertex(127.9, 5.7)]
    + [Vertex(122.9, 23.8), Vertex(123.4, 31.0), Vertex(128.9, 33.7), Vertex(129.8, 29.4), Vertex(141.6, 35.0)]
    + [Vertex(142.8, 41.0), Vertex(148.0, 43.3), Vertex(144.6, 45.5), Vertex(146.2, 49.3), Vertex(144.9, 54.2)]
    + [Vertex(136.8, 55.2), Vertex(143.1, 59.1), Vertex(153.7, 59.2), Vertex(159.4, 61.6), Vertex(160.3, 60.5)]
    + [Vertex(161.4, 60.3), Vertex(155.4, 57.0), Vertex(156.6, 50.3), Vertex(160.8, 52.8), Vertex(164.1, 55.8)]
    + [Vertex(163.8, 58.1), Vertex(167.3, 60.1), Vertex(170.7, 59.8), Vertex(179.9, -77.1)]
    + [Vertex(166.4, -77.1), Vertex(173.8, -71.8), Vertex(142.9, -66.8), Vertex(146.9, -44.8)]

  /** The `pacificWest` outline, one display per row of the literal. */
  const PacificWestOutline: Polygon :=
    [Vertex(-179.9, 62.2), Vertex(-179.7, 64.7)]
    + [Vertex(-177.3, 65.3), Vertex(-173.6, 63.4), Vertex(-166.0, 62.2), Vertex(-165.8, 60.9), Vertex(-168.4, 60.4)]
    + [Vertex(-166.6, 58.9), Vertex(-158.5, 57.8), Vertex(-153.1, 57.0), Vertex(-144.8, 59.9), Vertex(-136.1, 56.9)]
    + [Vertex(-131.7, 51.9), Vertex(-125.2, 48.4), Vertex(-124.5, 44.6), Vertex(-124.4, 40.7), Vertex(-117.6, 32.7)]
    + [Vertex(-110.7, 23.2), Vertex(-105.8, 19.7), Vertex(-96.1, 15.3), Vertex(-87.9, 12.4), Vertex(-83.7, 7.3)]
    + [Vertex(-78.7, 6.1), Vertex(-80.2, 0.9), Vertex(-82.2, -0.6), Vertex(-81.2, -6.3), Vertex(-76.7, -14.4)]
    + [Vertex(-70.4, -18.9), Vertex(-73.7, -36.7), Vertex(-76.0, -46.2), Vertex(-75.1, -53.0), Vertex(-73.4, -55.1)]
    + [Vertex(-66.6, -56.3), Vertex(-64.6, -55.0), Vertex(-59.6, -63.4), Vertex(-68.4, -65.7), Vertex(-75.8, -72.2)]
    + [Vertex(-98.6, -71.8), Vertex(-126.8, -73.2), Vertex(-146.8, -75.7), Vertex(-162.6, -78.4), Vertex(-179.9, -77.1)]

  /** A vertex with a longitude in [-180, 180] and a latitude in [-90, 90]. */
  predicate OnMap(v: Vertex)
  {
    -180.0 <= v.lon <= 180.0 && -90.0 <= v.lat <= 90.0
  }

  /** An outline usable for containment: at least three vertices, all on the
      map, and no edge of the closed chain (the closing one included) that
      starts and ends at the same vertex. */
  predicate WellFormedOutline(poly: Polygon)
  {
    && |poly| >= 3
    && (forall i :: 0 <= i < |poly| ==> OnMap(poly[i]))
    && (forall i :: 0 <= i < |poly| ==> poly[i] != poly[Next(i, |poly|)])
  }

  /** Vertices lo .. hi-1 are on the map, and each differs from the vertex
      listed after it, if there is one. The outline data is checked a run of
      vertices at a time. */
  predicate RunWellFormed(poly: Polygon, lo: nat, hi: nat)
    requires lo <= hi <= |poly|
  {
    forall i :: lo <= i < hi ==> OnMap(poly[i]) && (i + 1 < |poly| ==> poly[i] != poly[i + 1])
  }

  lemma RunsJoin(poly: Polygon, lo: nat, mid: nat, hi: nat)
    requires lo <= mid <= hi <= |poly|
    requires RunWellFormed(poly, lo, mid) && RunWellFormed(poly, mid, hi)
    ensures RunWellFormed(poly, lo, hi)
  {
  }

  /** An outline whose vertices form one well-formed run, with at least three
      vertices and a closing edge between distinct vertices, is well formed. */
  lemma WellFormedFromRun(poly: Polygon)
    requires |poly| >= 3 && RunWellFormed(poly, 0, |poly|)
    requires poly[|poly| - 1] != poly[0]
    ensures WellFormedOutline(poly)
  {
    forall i | 0 <= i < |poly|
      ensures poly[i] != poly[Next(i, |poly|)]
    {
      if i + 1 < |poly| {
        assert poly[i] != poly[i + 1];
      }
    }
  }

  lemma AtlanticRun0()
    ensures RunWellFormed(AtlanticOutline, 0, 8)
  {
  }

  lemma AtlanticRun8()
    ensures RunWellFormed(AtlanticOutline, 8, 16)
  {
  }

  lemma AtlanticRun16()
    ensures RunWellFormed(AtlanticOutline, 16, 24)
  {
  }

  lemma AtlanticRun24()
    ensures RunWellFormed(AtlanticOutline, 24, 32)
  {
  }

  lemma AtlanticRun32()
    ensures RunWellFormed(AtlanticOutline, 32, 40)
  {
  }

  lemma AtlanticRun40()
    ensures RunWellFormed(AtlanticOutline, 40, 48)
  {
  }

  lemma AtlanticRun48()
    ensures RunWellFormed(AtlanticOutline, 48, 56)
  {
  }

  lemma AtlanticRun56()
    ensures RunWellFormed(AtlanticOutline, 56, 63)
  {
  }

  lemma AtlanticWellFormed()
    ensures WellFormedOutline(AtlanticOutline)
  {
    AtlanticRun0();
    AtlanticRun8();
    AtlanticRun16();
    AtlanticRun24();
    AtlanticRun32();
    AtlanticRun40();
    AtlanticRun48();
    AtlanticRun56();
    RunsJoin(AtlanticOutline, 0, 8, 16);
    RunsJoin(AtlanticOutline, 0, 16, 24);
    RunsJoin(AtlanticOutline, 0, 24, 32);
    RunsJoin(AtlanticOutline, 0, 32, 40);
    RunsJoin(AtlanticOutline, 0, 40, 48);
    RunsJoin(AtlanticOutline, 0, 48, 56);
    RunsJoin(AtlanticOutline, 0, 56, 63);
    WellFormedFromRun(AtlanticOutline);
  }

  lemma IndianRun0()
    ensures RunWellFormed(IndianOutline, 0, 8)
  {
  }

  lemma IndianRun8()
    ensures RunWellFormed(IndianOutline, 8, 16)
  {
  }

  lemma IndianRun16()
    ensures RunWellFormed(IndianOutline, 16, 24)
  {
  }

  lemma IndianRun24()
    ensures RunWellFormed(IndianOutline, 24, 32)
  {
  }

  lemma IndianRun32()
    ensures RunWellFormed(IndianOutline, 32, 38)
  {
  }

  lemma IndianWellFormed()
    ensures WellFormedOutline(IndianOutline)
  {
    IndianRun0();
    IndianRun8();
    IndianRun16();
    IndianRun24();
    IndianRun32();
    RunsJoin(IndianOutline, 0, 8, 16);
    RunsJoin(IndianOutline, 0, 16, 24);
    RunsJoin(IndianOutline, 0, 24, 32);
    RunsJoin(IndianOutline, 0, 32, 38);
    WellFormedFromRun(IndianOutline);
  }

  lemma PacificEastRun0()
    ensures RunWellFormed(PacificEastOutline, 0, 8)
    ensures forall i :: 0 <= i < 8 ==> PacificEastOutline[i].lon > 0.0
  {
  }

  lemma PacificEastRun8()
    ensures RunWellFormed(PacificEastOutline, 8, 16)
    ensures forall i :: 8 <= i < 16 ==> PacificEastOutline[i].lon > 0.0
  {
  }

  lemma PacificEastRun16()
    ensures RunWellFormed(PacificEastOutline, 16, 24)
    ensures forall i :: 16 <= i < 24 ==> PacificEastOutline[i].lon > 0.0
  {
  }

  lemma PacificEastRun24()
    ensures RunWellFormed(PacificEastOutline, 24, 33)
    ensures forall i :: 24 <= i < 33 ==> PacificEastOutline[i].lon > 0.0
  {
  }

  lemma PacificEastWellFormed()
    ensures WellFormedOutline(PacificEastOutline)
    ensures forall i :: 0 <= i < |PacificEastOutline| ==> PacificEastOutline[i].lon > 0.0
  {
    PacificEastRun0();
    PacificEastRun8();
    PacificEastRun16();
    PacificEastRun24();
    RunsJoin(PacificEastOutline, 0, 8, 16);
    RunsJoin(PacificEastOutline, 0, 16, 24);
    RunsJoin(PacificEastOutline, 0, 24, 33);
    WellFormedFromRun(PacificEastOutline);
  }

  lemma PacificWestRun0()
    ensures RunWellFormed(PacificWestOutline, 0, 8)
    ensures forall i :: 0 <= i < 8 ==> PacificWestOutline[i].lon < 0.0
  {
  }

  lemma PacificWestRun8()
    ensures RunWellFormed(PacificWestOutline, 8, 16)
    ensures forall i :: 8 <= i < 16 ==> PacificWestOutline[i].lon < 0.0
  {
  }

  lemma PacificWestRun16()
    ensures RunWellFormed(PacificWestOutline, 16, 24)
    ensures forall i :: 16 <= i < 24 ==> PacificWestOutline[i].lon < 0.0
  {
  }

  lemma PacificWestRun24()
    ensures RunWellFormed(PacificWestOutline, 24, 32)
    ensures forall i :: 24 <= i < 32 ==> PacificWestOutline[i].lon < 0.0
  {
  }

  lemma PacificWestRun32()
    ensures RunWellFormed(PacificWestOutline, 32, 42)
    ensures forall i :: 32 <= i < 42 ==> PacificWestOutline[i].lon < 0.0
  {
  }

  lemma PacificWestWellFormed()
    ensures WellFormedOutline(PacificWestOutline)
    ensures forall i :: 0 <= i < |PacificWestOutline| ==> PacificWestOutline[i].lon < 0.0
  {
    PacificWestRun0();
    PacificWestRun8();
    PacificWestRun16();
    PacificWestRun24();
    PacificWestRun32();
    RunsJoin(PacificWestOutline, 0, 8, 16);
    RunsJoin(PacificWestOutline, 0, 16, 24);
    RunsJoin(PacificWestOutline, 0, 24, 32);
    RunsJoin(PacificWestOutline, 0, 32, 42);
    WellFormedFromRun(PacificWestOutline);
  }

  /** The outline of a basin. Every outline is well formed, and the two
      Pacific halves lie strictly on their own side of the prime meridian. */
  function Outline(b: Basin): (poly: Polygon)
    ensures WellFormedOutline(poly)
    ensures b == PacificEast ==> forall i :: 0 <= i < |poly| ==> poly[i].lon > 0.0
    ensures b == PacificWest ==> forall i :: 0 <= i < |poly| ==> poly[i].lon < 0.0
  {
    match b
    case Atlantic => AtlanticWellFormed(); AtlanticOutline
    case Indian => IndianWellFormed(); IndianOutline
    case PacificEast => PacificEastWellFormed(); PacificEastOutline
    case PacificWest => PacificWestWellFormed(); PacificWestOutline
  }

  /** The outlines in the order the classifier tests them. */
  function Registry(): (regions: seq<Polygon>)
    ensures |regions| == 4
    ensures forall b :: Outline(b) in regions
    ensures forall poly :: poly in regions ==> exists b :: poly == Outline(b)
  {
    [Outline(Atlantic), Outline(Indian), Outline(PacificEast), Outline(PacificWest)]
  }
}

=== FILE: scenarios.dfy ===
/** Concrete positions classified against the outline data. Each proof
    walks one outline's edge list from the last edge back to the first: a run
    of edges whose vertices all lie on one side of the position's parallel is
    skipped in one step (no edge of it can be crossed), and every other edge is
    evaluated on its own. */
module Scenarios {
  import opened Geometry
  import opened Oceans
  import opened Classifier

  /** Crossings of the edges from index i to the end, read straight off the
      vertex list. */
  function ScanFrom(poly: Polygon, p: Vertex, i: nat): nat
    requires i <= |poly|
    decreases |poly| - i
  {
    if i == |poly| then 0
    else (if CrossesEast(Edge(poly, i), p) then 1 else 0) + ScanFrom(poly, p, i + 1)
  }

  lemma {:induction false} ScanFromCountsEdges(poly: Polygon, p: Vertex, i: nat)
    requires i <= |poly|
    ensures ScanFrom(poly, p, i) == Crossings(Edges(poly)[i..], p)
    decreases |poly| - i
  {
    if i < |poly| {
      ScanFromCountsEdges(poly, p, i + 1);
      assert Edges(poly)[i..][1..] == Edges(poly)[i + 1..];
    }
  }

  /** Edges i .. j-1 contribute nothing when vertices i .. j all lie on the
      same side of p's parallel. */
  lemma {:induction false} ScanSkipsSameSide(poly: Polygon, p: Vertex, i: nat, j: nat)
    requires i <= j < |poly|
    requires || (forall k :: i <= k <= j ==> poly[k].lat > p.lat)
             || (forall k :: i <= k <= j ==> poly[k].lat <= p.lat)
    ensures ScanFrom(poly, p, i) == ScanFrom(poly, p, j)
    decreases j - i
  {
    if i < j {
      EdgeAwayNotCrossed(Edge(poly, i), p);
      ScanSkipsSameSide(poly, p, i + 1, j);
    }
  }

  /** Containment read off a completed scan. */
  lemma ContainsByScan(poly: Polygon, p: Vertex)
    ensures Contains(poly, p) <==> ScanFrom(poly, p, 0) % 2 == 1
  {
    ScanFromCountsEdges(poly, p, 0);
    assert Edges(poly)[0..] == Edges(poly);
  }

  lemma AtlanticGulfOfGuineaFrom62()
    ensures ScanFrom(AtlanticOutline, Vertex(0.0, 0.0), 62) == 0
  {
    var p := Vertex(0.0, 0.0);
    // edge 62, (-38.8, 65.1) to (-24.6, 68.5): both ends on one side of the parallel, not crossed
    assert ScanFrom(AtlanticOutline, p, 62) == 0;
  }

  lemma AtlanticGulfOfGuineaFrom38()
    ensures ScanFrom(AtlanticOutline, Vertex(0.0, 0.0), 38) == 0
  {
    var p := Vertex(0.0, 0.0);
    AtlanticGulfOfGuineaFrom62();
    // edges 38 to 61: vertices 38 to 62 all lie north of the parallel
    ScanSkipsSameSide(AtlanticOutline, p, 38, 62);
  }

  lemma AtlanticGulfOfGuineaFrom33()
    ensures ScanFrom(AtlanticOutline, Vertex(0.0, 0.0), 33) == 0
  {
    var p := Vertex(0.0, 0.0);
    AtlanticGulfOfGuineaFrom38();
    // edges 34 to 37: vertices 34 to 38 all lie north of the parallel
    ScanSkipsSameSide(AtlanticOutline, p, 34, 38);
    // edge 33, (-50, -0.1) to (-53, 5.5): meets the parallel at about 50.05 W, not east of the point, not crossed
    assert ScanFrom(AtlanticOutline, p, 33) == 0;
  }

  lemma AtlanticGulfOfGuineaFrom14()
    ensures ScanFrom(AtlanticOutline, Vertex(0.0, 0.0), 14) == 1
  {
    var p := Vertex(0.0, 0.0);
    AtlanticGulfOfGuineaFrom33();
    // edges 15 to 32: vertices 15 to 33 all lie on or south of the parallel
    ScanSkipsSameSide(AtlanticOutline, p, 15, 33);
    // edge 14, (9.9, 3.4) to (9, -1.7): crossed at about 9.30 E
    assert ScanFrom(AtlanticOutline, p, 14) == 1;
  }

  /** The Gulf of Guinea, at the origin, is inside the Atlantic outline. */
  lemma AtlanticHoldsGulfOfGuinea()
    ensures Contains(AtlanticOutline, Vertex(0.0, 0.0))
  {
    var p := Vertex(0.0, 0.0);
    AtlanticGulfOfGuineaFrom14();
    // edges 0 to 13: vertices 0 to 14 all lie north of the parallel
    ScanSkipsSameSide(AtlanticOutline, p, 0, 14);
    ContainsByScan(AtlanticOutline, p);
  }

  lemma AtlanticLondonFrom59()
    ensures ScanFrom(AtlanticOutline, Vertex(-0.13, 51.50), 59) == 0
  {
    var p := Vertex(-0.13, 51.50);
    // edge 62, (-38.8, 65.1) to (-24.6, 68.5): both ends on one side of the parallel, not crossed
    assert ScanFrom(AtlanticOutline, p, 62) == 0;
    // edges 60 to 61: vertices 60 to 62 all lie north of the parallel
    ScanSkipsSameSide(AtlanticOutline, p, 60, 62);
    // edge 59, (-52.2, 47.1) to (-54.9, 52.9): meets the parallel at about 54.25 W, not east of the point, not crossed
    assert ScanFrom(AtlanticOutline, p, 59) == 0;
  }

  lemma AtlanticLondonFrom35()
    ensures ScanFrom(AtlanticOutline, Vertex(-0.13, 51.50), 35) == 0
  {
    var p := Vertex(-0.13, 51.50);
    AtlanticLondonFrom59();
    // edges 35 to 58: vertices 35 to 59 all lie on or south of the parallel
    ScanSkipsSameSide(AtlanticOutline, p, 35, 59);
  }

  lemma AtlanticLondonFrom11()
    ensures ScanFrom(AtlanticOutline, Vertex(-0.13, 51.50), 11) == 0
  {
    var p := Vertex(-0.13, 51.50);
    AtlanticLondonFrom35();
    // edges 11 to 34: vertices 11 to 35 all lie on or south of the parallel
    ScanSkipsSameSide(AtlanticOutline, p, 11, 35);
  }

  /** London is inside the Atlantic outline: its edge from (4.6, 52.2) to (-6.3, 48.4) passes east of the city, and no other edge is crossed by the eastward ray. */
  lemma AtlanticHoldsLondon()
    ensures Contains(AtlanticOutline, Vertex(-0.13, 51.50))
  {
    var p := Vertex(-0.13, 51.50);
    AtlanticLondonFrom11();
    // edges 4 to 10: vertices 4 to 11 all lie on or south of the parallel
    ScanSkipsSameSide(AtlanticOutline, p, 4, 11);
    // edge 3, (4.6, 52.2) to (-6.3, 48.4): crossed at about 2.59 E
    assert ScanFrom(AtlanticOutline, p, 3) == 1;
    // edges 0 to 2: vertices 0 to 3 all lie north of the parallel
    ScanSkipsSameSide(AtlanticOutline, p, 0, 3);
    ContainsByScan(AtlanticOutline, p);
  }

  lemma AtlanticParisFrom59()
    ensures ScanFrom(AtlanticOutline, Vertex(2.35, 48.85), 59) == 0
  {
    var p := Vertex(2.35, 48.85);
    // edge 62, (-38.8, 65.1) to (-24.6, 68.5): both ends on one side of the parallel, not crossed
    assert ScanFrom(AtlanticOutline, p, 62) == 0;
    // edges 60 to 61: vertices 60 to 62 all lie north of the parallel
    ScanSkipsSameSide(AtlanticOutline, p, 60, 62);
    // edge 59, (-52.2, 47.1) to (-54.9, 52.9): meets the parallel at about 53.01 W, not east of the point, not crossed
    assert ScanFrom(AtlanticOutline, p, 59) == 0;
  }

  lemma AtlanticParisFrom35()
    ensures ScanFrom(AtlanticOutline, Vertex(2.35, 48.85), 35) == 0
  {
    var p := Vertex(2.35, 48.85);
    AtlanticParisFrom59();
    // edges 35 to 58: vertices 35 to 59 all lie on or south of the parallel
    ScanSkipsSameSide(AtlanticOutline, p, 35, 59);
  }

  lemma AtlanticParisFrom11()
    ensures ScanFrom(AtlanticOutline, Vertex(2.35, 48.85), 11) == 0
  {
    var p := Vertex(2.35, 48.85);
    AtlanticParisFrom35();
    // edges 11 to 34: vertices 11 to 35 all lie on or south of the parallel
    ScanSkipsSameSide(AtlanticOutline, p, 11, 35);
  }

  /** Paris is outside the Atlantic outline. */
  lemma AtlanticMissesParis()
    ensures !Contains(AtlanticOutline, Vertex(2.35, 48.85))
  {
    var p := Vertex(2.35, 48.85);
    AtlanticParisFrom11();
    // edges 4 to 10: vertices 4 to 11 all lie on or south of the parallel
    ScanSkipsSameSide(AtlanticOutline, p, 4, 11);
    // edge 3, (4.6, 52.2) to (-6.3, 48.4): meets the parallel at about 5.01 W, not east of the point, not crossed
    assert ScanFrom(AtlanticOutline, p, 3) == 0;
    // edges 0 to 2: vertices 0 to 3 all lie north of the parallel
    ScanSkipsSameSide(AtlanticOutline, p, 0, 3);
    ContainsByScan(AtlanticOutline, p);
  }

  lemma PacificEastParisFrom27()
    ensures ScanFrom(PacificEastOutline, Vertex(2.35, 48.85), 27) == 1
  {
    var p := Vertex(2.35, 48.85);
    // edge 32, (146.9, -44.8) to (149.9, -37.8): both ends on one side of the parallel, not crossed
    assert ScanFrom(PacificEastOutline, p, 32) == 0;
    // edges 28 to 31: vertices 28 to 32 all lie on or south of the parallel
    ScanSkipsSameSide(PacificEastOutline, p, 28, 32);
    // edge 27, (170.7, 59.8) to (179.9, -77.1): crossed at about 171.44 E
    assert ScanFrom(PacificEastOutline, p, 27) == 1;
  }

  lemma PacificEastParisFrom12()
    ensures ScanFrom(PacificEastOutline, Vertex(2.35, 48.85), 12) == 2
  {
    var p := Vertex(2.35, 48.85);
    PacificEastParisFrom27();
    // edges 13 to 26: vertices 13 to 27 all lie north of the parallel
    ScanSkipsSameSide(PacificEastOutline, p, 13, 27);
    // edge 12, (144.6, 45.5) to (146.2, 49.3): crossed at about 146.01 E
    assert ScanFrom(PacificEastOutline, p, 12) == 2;
  }

  /** Paris is outside the eastern Pacific outline. */
  lemma PacificEastMissesParis()
    ensures !Contains(PacificEastOutline, Vertex(2.35, 48.85))
  {
    var p := Vertex(2.35, 48.85);
    PacificEastParisFrom12();
    // edges 0 to 11: vertices 0 to 12 all lie on or south of the parallel
    ScanSkipsSameSide(PacificEastOutline, p, 0, 12);
    ContainsByScan(PacificEastOutline, p);
  }

  lemma PacificEastEquatorAt179EFrom27()
    ensures ScanFrom(PacificEastOutline, Vertex(179.9, 0.0), 27) == 0
  {
    var p := Vertex(179.9, 0.0);
    // edge 32, (146.9, -44.8) to (149.9, -37.8): both ends on one side of the parallel, not crossed
    assert ScanFrom(PacificEastOutline, p, 32) == 0;
    // edges 28 to 31: vertices 28 to 32 all lie on or south of the parallel
    ScanSkipsSameSide(PacificEastOutline, p, 28, 32);
    // edge 27, (170.7, 59.8) to (179.9, -77.1): meets the parallel at about 174.72 E, not east of the point, not crossed
    assert ScanFrom(PacificEastOutline, p, 27) == 0;
  }

  lemma PacificEastEquatorAt179EFrom4()
    ensures ScanFrom(PacificEastOutline, Vertex(179.9, 0.0), 4) == 0
  {
    var p := Vertex(179.9, 0.0);
    PacificEastEquatorAt179EFrom27();
    // edges 4 to 26: vertices 4 to 27 all lie north of the parallel
    ScanSkipsSameSide(PacificEastOutline, p, 4, 27);
  }

  /** The equator at 179.9 E is outside the eastern Pacific outline, whose edge from (170.7, 59.8) to (179.9, -77.1) passes west of it. */
  lemma PacificEastMissesEquatorAt179E()
    ensures !Contains(PacificEastOutline, Vertex(179.9, 0.0))
  {
    var p := Vertex(179.9, 0.0);
    PacificEastEquatorAt179EFrom4();
    // edge 3, (152.1, -0.9) to (127.9, 5.7): meets the parallel at about 148.80 E, not east of the point, not crossed
    assert ScanFrom(PacificEastOutline, p, 3) == 0;
    // edges 0 to 2: vertices 0 to 3 all lie on or south of the parallel
    ScanSkipsSameSide(PacificEastOutline, p, 0, 3);
    ContainsByScan(PacificEastOutline, p);
  }

  lemma PacificWestMidPacificFrom41()
    ensures ScanFrom(PacificWestOutline, Vertex(-150.0, 20.0), 41) == 0
  {
    var p := Vertex(-150.0, 20.0);
    // edge 41, (-179.9, -77.1) to (-179.9, 62.2): meets the parallel at about 179.90 W, not east of the point, not crossed
    assert ScanFrom(PacificWestOutline, p, 41) == 0;
  }

  lemma PacificWestMidPacificFrom18()
    ensures ScanFrom(PacificWestOutline, Vertex(-150.0, 20.0), 18) == 0
  {
    var p := Vertex(-150.0, 20.0);
    PacificWestMidPacificFrom41();
    // edges 18 to 40: vertices 18 to 41 all lie on or south of the parallel
    ScanSkipsSameSide(PacificWestOutline, p, 18, 41);
  }

  /** The point (-150, 20) is inside the western Pacific outline. */
  lemma PacificWestHoldsMidPacific()
    ensures Contains(PacificWestOutline, Vertex(-150.0, 20.0))
  {
    var p := Vertex(-150.0, 20.0);
    PacificWestMidPacificFrom18();
    // edge 17, (-110.7, 23.2) to (-105.8, 19.7): crossed at about 106.22 W
    assert ScanFrom(PacificWestOutline, p, 17) == 1;
    // edges 0 to 16: vertices 0 to 17 all lie north of the parallel
    ScanSkipsSameSide(PacificWestOutline, p, 0, 17);
    ContainsByScan(PacificWestOutline, p);
  }

  lemma PacificWestEquatorAt179WFrom23()
    ensures ScanFrom(PacificWestOutline, Vertex(-179.9, 0.0), 23) == 1
  {
    var p := Vertex(-179.9, 0.0);
    // edge 41, (-179.9, -77.1) to (-179.9, 62.2): meets the parallel at about 179.90 W, not east of the point, not crossed
    assert ScanFrom(PacificWestOutline, p, 41) == 0;
    // edges 24 to 40: vertices 24 to 41 all lie on or south of the parallel
    ScanSkipsSameSide(PacificWestOutline, p, 24, 41);
    // edge 23, (-80.2, 0.9) to (-82.2, -0.6): crossed at about 81.40 W
    assert ScanFrom(PacificWestOutline, p, 23) == 1;
  }

  /** The equator at 179.9 W lies exactly on the western Pacific outline's
      closing edge, which runs along that meridian. It counts as inside only
      because a crossing must lie strictly east of the point: that edge is not
      counted, and the one edge east of the point that is counted gives an
      odd total. */
  lemma PacificWestHoldsEquatorAt179W()
    ensures Contains(PacificWestOutline, Vertex(-179.9, 0.0))
  {
    var p := Vertex(-179.9, 0.0);
    PacificWestEquatorAt179WFrom23();
    // edges 0 to 22: vertices 0 to 23 all lie north of the parallel
    ScanSkipsSameSide(PacificWestOutline, p, 0, 23);
    ContainsByScan(PacificWestOutline, p);
  }

  lemma PacificWestNearAntimeridianFrom23()
    ensures ScanFrom(PacificWestOutline, Vertex(-179.0, 0.0), 23) == 1
  {
    var p := Vertex(-179.0, 0.0);
    // edge 41, (-179.9, -77.1) to (-179.9, 62.2): meets the parallel at about 179.90 W, not east of the point, not crossed
    assert ScanFrom(PacificWestOutline, p, 41) == 0;
    // edges 24 to 40: vertices 24 to 41 all lie on or south of the parallel
    ScanSkipsSameSide(PacificWestOutline, p, 24, 41);
    // edge 23, (-80.2, 0.9) to (-82.2, -0.6): crossed at about 81.40 W
    assert ScanFrom(PacificWestOutline, p, 23) == 1;
  }

  /** The equator at 179 W, strictly between the closing edge along 179.9 W
      and the American coast, is inside the western Pacific outline. The
      closing edge passes west of the point, so the answer does not depend on
      how points on an edge are treated. */
  lemma PacificWestHoldsNearAntimeridian()
    ensures Contains(PacificWestOutline, Vertex(-179.0, 0.0))
  {
    var p := Vertex(-179.0, 0.0);
    PacificWestNearAntimeridianFrom23();
    // edges 0 to 22: vertices 0 to 23 all lie north of the parallel
    ScanSkipsSameSide(PacificWestOutline, p, 0, 23);
    ContainsByScan(PacificWestOutline, p);
  }

  lemma IndianSwappedParisFrom19()
    ensures ScanFrom(IndianOutline, Vertex(48.85, 2.35), 19) == 0
  {
    var p := Vertex(48.85, 2.35);
    // edge 37, (37.48, -68.65) to (21.4, -34.15): both ends on one side of the parallel, not crossed
    assert ScanFrom(IndianOutline, p, 37) == 0;
    // edges 19 to 36: vertices 19 to 37 all lie on or south of the parallel
    ScanSkipsSameSide(IndianOutline, p, 19, 37);
  }

  lemma IndianSwappedParisFrom3()
    ensures ScanFrom(IndianOutline, Vertex(48.85, 2.35), 3) == 1
  {
    var p := Vertex(48.85, 2.35);
    IndianSwappedParisFrom19();
    // edge 18, (94.98, 6.29) to (105, -6.52): crossed at about 98.06 E
    assert ScanFrom(IndianOutline, p, 18) == 1;
    // edges 4 to 17: vertices 4 to 18 all lie north of the parallel
    ScanSkipsSameSide(IndianOutline, p, 4, 18);
    // edge 3, (39.68, -3.5) to (51.8, 10.16): meets the parallel at about 44.87 E, not east of the point, not crossed
    assert ScanFrom(IndianOutline, p, 3) == 1;
  }

  /** The point (48.85, 2.35), Paris with its coordinates swapped, is inside the Indian outline, off the Somali coast. */
  lemma IndianHoldsSwappedParis()
    ensures Contains(IndianOutline, Vertex(48.85, 2.35))
  {
    var p := Vertex(48.85, 2.35);
    IndianSwappedParisFrom3();
    // edges 0 to 2: vertices 0 to 3 all lie on or south of the parallel
    ScanSkipsSameSide(IndianOutline, p, 0, 3);
    ContainsByScan(IndianOutline, p);
  }

  /** Paris is north of every vertex of the Indian outline. */
  lemma IndianMissesParis()
    ensures !Contains(IndianOutline, Vertex(2.35, 48.85))
  {
    var p := Vertex(2.35, 48.85);
    assert forall i :: 0 <= i < |IndianOutline| ==> IndianOutline[i].lat <= p.lat;
    OutsideExtentNotContained(IndianOutline, p);
  }

  /** Paris is east of every vertex of the western Pacific outline. */
  lemma PacificWestMissesParis()
    ensures !Contains(PacificWestOutline, Vertex(2.35, 48.85))
  {
    var p := Vertex(2.35, 48.85);
    assert forall i :: 0 <= i < |PacificWestOutline| ==> PacificWestOutline[i].lon <= p.lon;
    OutsideExtentNotContained(PacificWestOutline, p);
  }

  /** The equator at 179.9 E is east of every Atlantic vertex. */
  lemma AtlanticMissesEquatorAt179E()
    ensures !Contains(AtlanticOutline, Vertex(179.9, 0.0))
  {
    var p := Vertex(179.9, 0.0);
    assert forall i :: 0 <= i < |AtlanticOutline| ==> AtlanticOutline[i].lon <= p.lon;
    OutsideExtentNotContained(AtlanticOutline, p);
  }

  /** The equator at 179.9 E is east of every Indian vertex. */
  lemma IndianMissesEquatorAt179E()
    ensures !Contains(IndianOutline, Vertex(179.9, 0.0))
  {
    var p := Vertex(179.9, 0.0);
    assert forall i :: 0 <= i < |IndianOutline| ==> IndianOutline[i].lon <= p.lon;
    OutsideExtentNotContained(IndianOutline, p);
  }

  /** The equator at 179.9 E is east of every western Pacific vertex. */
  lemma PacificWestMissesEquatorAt179E()
    ensures !Contains(PacificWestOutline, Vertex(179.9, 0.0))
  {
    var p := Vertex(179.9, 0.0);
    assert forall i :: 0 <= i < |PacificWestOutline| ==> PacificWestOutline[i].lon <= p.lon;
    OutsideExtentNotContained(PacificWestOutline, p);
  }

  /** The Gulf of Guinea is ocean. */
  lemma GulfOfGuineaIsOcean()
    ensures SortLandOcean(0.0, 0.0) == "Ocean"
  {
    AtlanticHoldsGulfOfGuinea();
    assert Contains(Outline(Atlantic), Vertex(0.0, 0.0));
  }

  /** The middle of the northern Pacific is ocean. */
  lemma MidPacificIsOcean()
    ensures SortLandOcean(-150.0, 20.0) == "Ocean"
  {
    PacificWestHoldsMidPacific();
    assert Contains(Outline(PacificWest), Vertex(-150.0, 20.0));
  }

  /** London is classified as ocean: the Atlantic outline takes in southern
      England. */
  lemma LondonIsOcean()
    ensures SortLandOcean(-0.13, 51.50) == "Ocean"
  {
    AtlanticHoldsLondon();
    assert Contains(Outline(Atlantic), Vertex(-0.13, 51.50));
  }

  /** Paris is land. */
  lemma ParisIsLand()
    ensures SortLandOcean(2.35, 48.85) == "Land"
  {
    var p := Vertex(2.35, 48.85);
    forall b
      ensures !Contains(Outline(b), p)
    {
      match b
      case Atlantic => AtlanticMissesParis();
      case Indian => IndianMissesParis();
      case PacificEast => PacificEastMissesParis();
      case PacificWest => PacificWestMissesParis();
    }
  }

  /** Passing latitude where longitude belongs changes the answer: Paris is
      land, but the point with its coordinates swapped is ocean. */
  lemma SwappedCoordinatesChangeStatus()
    ensures SortLandOcean(2.35, 48.85) == "Land"
    ensures SortLandOcean(48.85, 2.35) == "Ocean"
  {
    ParisIsLand();
    IndianHoldsSwappedParis();
    assert Contains(Outline(Indian), Vertex(48.85, 2.35));
  }

  /** The equator at 179.9 W is ocean. The point lies on the western Pacific
      outline's closing edge, so this answer follows from the boundary rule
      (a crossing must lie strictly east of the point). */
  lemma EquatorAt179WIsOcean()
    ensures SortLandOcean(-179.9, 0.0) == "Ocean"
  {
    PacificWestHoldsEquatorAt179W();
    assert Contains(Outline(PacificWest), Vertex(-179.9, 0.0));
  }

  /** The equator at 179 W, inside the western Pacific and off its boundary,
      is ocean. */
  lemma NearAntimeridianWestIsOcean()
    ensures SortLandOcean(-179.0, 0.0) == "Ocean"
  {
    PacificWestHoldsNearAntimeridian();
    assert Contains(Outline(PacificWest), Vertex(-179.0, 0.0));
  }

  /** Just east of the antimeridian, on the equator, is land: the point falls
      in the strip the eastern Pacific outline leaves out. */
  lemma EquatorAt179EIsLand()
    ensures SortLandOcean(179.9, 0.0) == "Land"
  {
    var p := Vertex(179.9, 0.0);
    forall b
      ensures !Contains(Outline(b), p)
    {
      match b
      case Atlantic => AtlanticMissesEquatorAt179E();
      case Indian => IndianMissesEquatorAt179E();
      case PacificEast => PacificEastMissesEquatorAt179E();
      case PacificWest => PacificWestMissesEquatorAt179E();
    }
  }
}

=== FILE: text.dfy ===
/** Optional values and results, shared by the parsing modules. */
module Results {

  datatype Option<+T> = None | Some(value: T)

  datatype Result<+T, +E> = Ok(value: T) | Err(error: E)
}

/** Splitting text on a one-character separator and joining it back. */
module Text {

  /** Position of the first c in s, or |s| when s has none. */
  function IndexOf(s: string, c: char): (k: nat)
    ensures k <= |s|
    ensures k < |s| ==> s[k] == c
    ensures forall j :: 0 <= j < k ==> s[j] != c
  {
    if |s| == 0 then 0
    else if s[0] == c then 0
    else 1 + IndexOf(s[1..], c)
  }

  /** The pieces of parts glued together with sep between neighbours. */
  function Join(parts: seq<string>, sep: char): string
  {
    if |parts| == 0 then ""
    else if |parts| == 1 then parts[0]
    else parts[0] + [sep] + Join(parts[1..], sep)
  }

  /** The pieces of s between occurrences of sep, in order. Like str.split
      with an explicit separator, an empty s or adjacent separators give
      empty pieces, and there is always at least one piece. */
  function Split(s: string, sep: char): (parts: seq<string>)
    ensures |parts| >= 1
    ensures forall i :: 0 <= i < |parts| ==> sep !in parts[i]
    ensures Join(parts, sep) == s
    decreases |s|
  {
    var k := IndexOf(s, sep);
    if k == |s| then
      assert sep !in s;
      [s]
    else
      var rest := Split(s[k + 1..], sep);
      var parts := [s[..k]] + rest;
      assert parts[1..] == rest;
      assert s == s[..k] + [sep] + s[k + 1..];
      parts
  }

  /** The first piece is a prefix of the split string. */
  lemma SplitFirstPiece(s: string, sep: char)
    ensures |Split(s, sep)[0]| <= |s| && Split(s, sep)[0] == s[..|Split(s, sep)[0]|]
  {
    var parts := Split(s, sep);
    if |parts| > 1 {
      assert s == parts[0] + [sep] + Join(parts[1..], sep);
    }
  }

  /** Splitting undoes joining, as long as no piece contains the separator. */
  lemma {:induction false} SplitJoin(parts: seq<string>, sep: char)
    requires |parts| >= 1
    requires forall i :: 0 <= i < |parts| ==> sep !in parts[i]
    ensures Split(Join(parts, sep), sep) == parts
  {
    var s := Join(parts, sep);
    if |parts| == 1 {
      assert IndexOf(s, sep) == |s|;
    } else {
      var head := parts[0];
      var tail := Join(parts[1..], sep);
      JoinedPieces(head, tail, sep);
      SplitAtFirst(s, |head|, sep);
      SplitJoin(parts[1..], sep);
      assert parts == [head] + parts[1..];
    }
  }

  /** Where the pieces of head + [sep] + tail sit. */
  lemma JoinedPieces(head: string, tail: string, sep: char)
    ensures var s := head + [sep] + tail;
            && |head| < |s| && s[|head|] == sep && s[..|head|] == head && s[|head| + 1..] == tail
  {
    var s := head + [sep] + tail;
    assert s[..|head|] == head;
    assert s[|head| + 1..] == tail;
  }

  /** When the first sep in s is at position k, the first piece is s[..k]
      and the rest is the split of what follows it. */
  lemma SplitAtFirst(s: string, k: nat, sep: char)
    requires k < |s| && s[k] == sep && sep !in s[..k]
    ensures Split(s, sep) == [s[..k]] + Split(s[k + 1..], sep)
  {
    assert forall j :: 0 <= j < k ==> s[j] == s[..k][j];
    assert IndexOf(s, sep) == k;
  }
}
